=== FILE: README.md ===
# Rebottle conversion core in Dafny

Rebottle is a desktop tool that turns Dolby Vision MKV files into MP4
files. For each queued file it runs a chain of external tools:

1. `mkvextract` extracts the video track.
2. `ffmpeg` extracts the first audio stream and, optionally, the first subtitle stream.
3. `mp4muxer` muxes video and audio into `<stem>_dvh1.mp4`.
4. Optionally, `ffmpeg` converts the subtitles and `MP4Box` merges them into `<stem>_dvh1_with_subs.mp4`.
5. When every stage succeeds, the scratch files are deleted.

A batch runs the files of the queue in order and stops at the first
failure. A small message-driven window state holds the queue, the options
and the logs.

This project models that core as pure functions over immutable data:

- **`Commands`** (`command.dfy`): one tool run as the log sees it. The
  process outcome (`Launched(success, stderr)` or `LaunchError(message)`)
  is an input, and the function computes the lines written about the run.
- **`Pipeline`** (`pipeline.dfy`): one file's conversion, `Convert` and
  `ProcessItem`. It does not run any tools. Instead, an oracle
  `nat -> ProcessOutcome` gives the outcome of the k-th tool run of a
  batch. The disk is the set of existing paths:
  - a tool that succeeds adds the file it writes;
  - a tool that fails changes nothing;
  - the clean-up removes the scratch files.

  An item's result is `Ok` or `Err(reason)`. It also returns a `Trace`:
  its log, the ordered list of tool invocations with their full argument
  vectors, and the disk afterwards.
- **`PipelineProperties`** (`pipeline_properties.dfy`): what the conversion
  guarantees, stage by stage.
- **`ItemLogs`** (`item_logs.dfy`): the item's log for every way an item
  can end. Each stage contributes its heading and then the transcript of
  its tool run's outcome, in execution order.
- **`Batch`** (`batch.dfy`): the batch over any per-file conversion.
  - The log is kept as `Entry` values, one per formatted line group, and
    is rendered to lines by `Flatten`.
  - `Drive` is the recursive reference definition of the loop, and
    `RunQueue` is the whole batch.
  - `QueueLoop` and `ProcessQueue` are the loop as the Rust code writes it,
    proved equal to `RunQueue`.
  - `RunBatch` instantiates the conversion with `ProcessItem`.
- **`AppModel`** (`app.dfy`): the window state, `Update` for every message,
  the start guard, completion handling and the `.mkv` drop filter.
- **Supporting modules:** `Text` (trim, join, split, decimal formatting),
  `PathNames` (file stem, extension, path join) and `FrameRates` (the six
  frame rates and their two string forms).

## Model

| member | source | states |
|---|---|---|
| FrameRates.RatioRoundTrip | src/main.rs:51-60 | every frame rate's `to_value` string reads back to that frame rate, so the mapping is total |
| FrameRates.RatioInjective | src/main.rs:51-60 | distinct frame rates have distinct `to_value` strings |
| FrameRates.FromRatio | src/main.rs:51-60 | a ratio string that is recognised is exactly the `to_value` of the frame rate returned |
| FrameRates.LabelShowsRatio | src/main.rs:40-60 | every `to_string` label is a six-character rate, a space, then the `to_value` string in parentheses |
| FrameRates.LabelParts | src/main.rs:40-60 | each label is the decimal rate, " (", the `to_value` string and ")" |
| FrameRates.LabelInjective | src/main.rs:40-49 | distinct frame rates have distinct display labels |
| Text.Trim | src/main.rs:546-547 | `str::trim`: the result is no longer than the input, empty exactly when the input is blank, and otherwise starts and ends with non-whitespace |
| Text.TrimIsSlice | src/main.rs:546-547 | the trimmed string is the slice of the input with only whitespace before and after it, so trimming removes exactly the leading and trailing whitespace |
| Text.TrimIdempotent | src/main.rs:546-547 | trimming a trimmed stderr changes nothing |
| Text.DecimalRoundTrip | src/main.rs:786-814 | the decimal rendering of a file position parses back to that number |
| Text.DecimalInjective | src/main.rs:786-814 | different positions or counts render to different numerals |
| Text.Decimal | src/main.rs:780-818 | `{}` formatting of a count: at least one digit, only digits, and no leading zero |
| PathNames.StemExtensionSplit | src/main.rs:568 | a file name with an extension is its stem, a dot and the extension; without one, the stem is the whole name |
| PathNames.StemOfDottedName | src/main.rs:568 | the stem of `s.e` with a dot-free `e` and non-empty `s` is `s`, and its extension is `e` |
| PathNames.Stem | src/main.rs:568 | `file_stem`: a prefix of the file name, and when shorter it is non-empty and followed by the name's last dot |
| PathNames.Extension | src/main.rs:105 | `extension`: a dot-free suffix after a dot; absent only for "..", a name without dots, or a name whose only dot leads it |
| PathNames.JoinPath | src/main.rs:574 | a joined path is the directory, then at most one added '/', then the file name |
| PathNames.JoinSeparator | src/main.rs:574 | the file name starts the joined path or follows a '/', and a '/' is added exactly when the directory is non-empty and does not already end in one |
| PathNames.JoinPathsDiffer | src/main.rs:574-708 | joins whose file names differ at the end are different paths |
| Commands.CommandLine | src/main.rs:530-534 | the echo line is `$ ` and the command and arguments joined by single spaces |
| Commands.CommandLineDeterminesInvocation | src/main.rs:530-536 | when no part contains a space, splitting the echo line recovers the command and every argument |
| Commands.Transcript | src/main.rs:523-559 | one or two lines: the echo line, then the success marker iff the run launched and succeeded; "Error: " and trimmed stderr iff it exited non-zero with non-blank stderr; "Error: " and the message on a launch error |
| Commands.ErrorLine | src/main.rs:543-556 | an "Error: " line starts with 'E', so it is never the success marker, and ends as its message does |
| Commands.TranscriptLines | src/main.rs:535-556 | every transcript line is the echo line, the success marker or an "Error: " line |
| Pipeline.ExecuteFacts | src/main.rs:523-559 | a tool run reads the next oracle outcome, is recorded as the next call, appends exactly the transcript of that outcome (the echo line, then the success marker or the "Error: " line), and changes the disk only in the file it creates, which exists afterwards iff the run succeeded or it already existed |
| PipelineProperties.QuietExecute | src/main.rs:580-585 | a tool run never writes the clean-up or completion line |
| PipelineProperties.TranscriptLineQuiet | src/main.rs:535-556 | no transcript line is the clean-up or completion line |
| PipelineProperties.VideoFacts | src/main.rs:572-586 | the video extraction is the item's first tool run, reads its first outcome and writes the scratch video only on success |
| PipelineProperties.AudioFacts | src/main.rs:601-619 | after a good video extraction, the audio extraction is the second tool run and reads the second outcome |
| PipelineProperties.SubtitleFacts | src/main.rs:635-665 | the subtitle extraction runs iff requested; its file is kept only when it succeeded, and a failure logs the continuing note |
| Pipeline.SubtitleStageFacts | src/main.rs:635-665 | the subtitle extraction runs iff subtitles were requested; the stage yields the `_subs.srt` file iff that run succeeded, and then the file exists; it never deletes and only appends to the log |
| PipelineProperties.MuxFacts | src/main.rs:667-690 | the muxer is the third tool run, or the fourth with subtitles, and writes the output only on success |
| PipelineProperties.PrefixFacts | src/main.rs:572-690 | the four facts above, combined for the first four stages |
| PipelineProperties.ConvertShape | src/main.rs:562-768 | an item runs between one and six tools, the first being mkvextract on the input, and a failed item has deleted nothing |
| PipelineProperties.ItemShape | src/main.rs:562-768 | `process_video_with_logs` first runs `mkvextract tracks <input>`, writing `<stem>_DV.hevc` in the temporary directory, runs at most six tools, and deletes nothing when it fails |
| PipelineProperties.VideoFailureStopsItem | src/main.rs:587-599 | a failed video extraction fails the item with "Video extraction failed: " and stderr, or with the launch error; nothing else runs and the disk is unchanged |
| PipelineProperties.AudioFailureStopsItem | src/main.rs:621-633 | a failed audio extraction fails the item with its reason after exactly two tool runs, leaving the scratch video |
| PipelineProperties.MuxFailureStopsItem | src/main.rs:691-703 | a failed mux fails the item with "MP4 muxing failed: " or the launch error, the muxer is the last tool run, and the scratch video, audio and any extracted subtitles stay on disk |
| PipelineProperties.SubtitleExtractionIffRequested | src/main.rs:636-665 | once the video and audio extractions have succeeded, the third tool run is the `-map 0:s:0` extraction exactly when subtitles were requested |
| PipelineProperties.MergeStageExtends | src/main.rs:705-756 | the subtitle stage only appends at most two tool runs, and does nothing without extracted subtitles |
| Pipeline.MergeStageFacts | src/main.rs:705-756 | the subtitle stage adds at most the conversion and MP4Box after the earlier calls, never deletes, does nothing without a subtitle file, and fails iff the conversion succeeded and MP4Box then exited non-zero |
| PipelineProperties.NoSubtitlesRunsThreeTools | src/main.rs:572-703 | without subtitles, the item succeeds iff its three tool runs succeed, and then the runs were mkvextract, ffmpeg and mp4muxer, and the disk gained the output and lost the scratch files |
| PipelineProperties.ThreeToolsSucceed | src/main.rs:572-767 | without subtitles and with three successful tools, the item succeeds after mkvextract, ffmpeg and mp4muxer, with the output and without the scratch files |
| PipelineProperties.SubtitleExtractionIsSoft | src/main.rs:652-662 | a failed subtitle extraction of any kind is logged; the item continues, succeeds iff the mux does, and never runs the conversion or MP4Box |
| PipelineProperties.ConversionFailureIsSoft | src/main.rs:706-727 | a failed subtitle conversion skips the merge and the item still succeeds and cleans up |
| PipelineProperties.MergeDecidesItem | src/main.rs:729-756 | MP4Box is the sixth run; the item fails with "Subtitle merging failed: " and stderr only when MP4Box launched and exited non-zero, and a launch error is ignored |
| PipelineProperties.MergeFailureKeepsScratch | src/main.rs:729-751 | when MP4Box launched and exited non-zero the item fails with "Subtitle merging failed: " and stderr, and the scratch video, audio and `_subs.srt`, the primary `_dvh1.mp4` and `_subs.mp4` all stay on disk with everything that was there before |
| PipelineProperties.MergeResult | src/main.rs:729-756 | after a successful conversion the item fails with "Subtitle merging failed: " and stderr iff MP4Box launched and exited non-zero |
| PipelineProperties.ConversionFifth | src/main.rs:706-727 | with every earlier stage successful, the fifth tool run is the subtitle conversion |
| PipelineProperties.ConversionKept | src/main.rs:706-767 | with every earlier stage successful, `_subs.mp4` is on disk after the item |
| PipelineProperties.MergeStageRuns | src/main.rs:706-756 | after a successful conversion the subtitle stage has run the conversion and then MP4Box, and `_subs.mp4` exists |
| PipelineProperties.MergeStageResult | src/main.rs:726-756 | after a successful conversion the subtitle stage's result is MP4Box's: a failure only when it exited non-zero |
| PipelineProperties.MergeOnlyAfterConversion | src/main.rs:706-756 | MP4Box runs iff subtitles were requested and the extractions, the mux and the conversion all succeeded |
| PipelineProperties.MergeAfterConversion | src/main.rs:706-756 | when subtitles were requested and every stage up to the conversion succeeded, MP4Box is the sixth and last tool run |
| PipelineProperties.NoMergeWithoutConversion | src/main.rs:587-727 | otherwise no tool run of the item is MP4Box |
| PipelineProperties.StopsBeforeMerge | src/main.rs:587-727 | short of a successful conversion the tools run are a prefix of mkvextract, ffmpeg audio, the optional subtitle extraction, mp4muxer and the conversion |
| PipelineProperties.BeforeMergeTools | src/main.rs:572-727 | none of the tools before the merge is MP4Box |
| PipelineProperties.ExtractionFailureFails | src/main.rs:587-633 | a failed video or audio extraction fails the item |
| PipelineProperties.FailureIsQuiet | src/main.rs:587-756 | a failed item has not written the clean-up or completion line, and every file that was on disk before it is still there |
| PipelineProperties.SuccessEndsWithCleanup | src/main.rs:758-767 | a successful item ends with the clean-up and completion lines, written nowhere earlier, has deleted the scratch video, audio and extracted subtitles, and holds its output |
| PipelineProperties.SuccessLogs | src/main.rs:758-767 | a successful item's log ends with the clean-up and completion lines, written nowhere before |
| PipelineProperties.SuccessDisk | src/main.rs:758-767 | a successful item has deleted the scratch video, audio and extracted subtitles and holds its output |
| PipelineProperties.CleanUpLogs | src/main.rs:758-767 | the clean-up appends exactly its two lines |
| Pipeline.CleanUpFacts | src/main.rs:758-767 | the clean-up runs no tool, appends its two lines, deletes the scratch video, audio and extracted subtitles, and keeps every other file |
| PipelineProperties.CleanupOnlyOnSuccess | src/main.rs:758-767 | the clean-up and completion lines appear iff the item succeeds, and then as the last two lines; a successful item has removed the scratch video, audio and extracted subtitles and holds its output; a failed item still has every file that was on disk before it (the scratch files each failure keeps are stated by VideoFailureStopsItem, AudioFailureStopsItem, MuxFailureStopsItem and MergeFailureKeepsScratch) |
| PipelineProperties.MergeStageQuiet | src/main.rs:705-756 | the subtitle stage never writes the clean-up line and never deletes |
| PipelineProperties.MergeStageConverted | src/main.rs:706-727 | the subtitle stage creates `_subs.mp4` iff it ran the conversion and that run succeeded |
| PipelineProperties.ConvertedSubtitlesKept | src/main.rs:706-767 | `_subs.mp4` is on disk after the item iff it was before or the conversion succeeded; it is never deleted |
| PipelineProperties.ItemConvertedSubtitlesKept | src/main.rs:705-767 | for `process_video_with_logs` with its stem-derived paths, `_subs.mp4` is on disk after the item iff it was before or the conversion ran and succeeded |
| PipelineProperties.ConvertedSubtitlesSeparate | src/main.rs:637-708 | `_subs.mp4` never names a file the clean-up deletes |
| PipelineProperties.OutputSeparate | src/main.rs:668-708 | the output is never a scratch file and never the converted subtitles |
| PipelineProperties.OutputNotScratch | src/main.rs:668-708 | the output is never the scratch video, audio or subtitles |
| PipelineProperties.OutputNotConverted | src/main.rs:668-708 | the output is never `_subs.mp4` |
| PipelineProperties.WithSubsNotConverted | src/main.rs:706-708 | `<stem>_dvh1_with_subs.mp4` in the output folder is never `<stem>_subs.mp4` in the temporary directory, for any folders and stem |
| PipelineProperties.TailsDiffer | src/main.rs:668-708 | paths whose file names end in different nine-character suffixes differ |
| PipelineProperties.TailOfJoin | src/main.rs:574 | a joined path ends with the last nine characters of its file name |
| PipelineProperties.ItemWithoutSubtitles | src/main.rs:562-767 | with a file name, no subtitles and three successful tools, the item succeeds after mkvextract, ffmpeg and mp4muxer, and its output exists |
| PipelineProperties.MovieWithoutSubtitles | src/main.rs:568-669 | "movie.mkv" with everything succeeding produces `<folder>/movie_dvh1.mp4` |
| PipelineProperties.MovieOutput | src/main.rs:568-669 | the output path of "movie.mkv" is `<folder>/movie_dvh1.mp4` |
| ItemLogs.VideoRunLog | src/main.rs:572-585 | the video stage logs "Extracting video stream..." and then the mkvextract transcript of the item's first outcome |
| ItemLogs.AudioRunLog | src/main.rs:601-619 | the audio stage follows with "Extracting audio stream..." and the ffmpeg transcript of the second outcome |
| ItemLogs.SubtitleRunLog | src/main.rs:635-665 | the subtitle stage appends nothing when subtitles are off; otherwise its heading, the extraction transcript of the third outcome and, when that run failed, the continuing note |
| ItemLogs.MuxRunLog | src/main.rs:572-689 | up to the mux, the log is the video, audio, optional subtitle and mux stages in that order, each heading followed by the transcript of its own run's outcome |
| ItemLogs.VideoFailureLog | src/main.rs:572-599 | a failed video extraction leaves exactly its heading and the mkvextract transcript as the item's log; that transcript ends with the "Error: " line unless the tool exited with blank stderr |
| ItemLogs.AudioFailureLog | src/main.rs:601-633 | a failed audio extraction's log is the video stage's log, then the audio heading and the failed run's transcript |
| ItemLogs.MuxFailureLog | src/main.rs:667-703 | a failed mux's log ends with the mux heading and the muxer's transcript, after the extraction stages' logs |
| ItemLogs.MergeStageLog | src/main.rs:705-756 | the subtitle stage logs "Processing subtitles..." and the conversion transcript, then MP4Box's transcript whenever the conversion succeeded, whatever MP4Box reported |
| ItemLogs.MuxedItemLog | src/main.rs:667-767 | after a good mux the log continues with the subtitle conversion and merge logs, and then the clean-up and completion lines iff the item succeeded |
| ItemLogs.ThreeToolsLog | src/main.rs:572-767 | without subtitles and with three successful tools the whole log is the three headings, each followed by its tool's echo line and the success marker, then the clean-up and completion lines |
| ItemLogs.MergeFailureLog | src/main.rs:729-756 | a failed merge's log ends with the conversion's stage log and MP4Box's transcript, and no clean-up line follows |
| Batch.FlattenAppend | src/main.rs:777-820 | rendering the log distributes over concatenation of entries |
| Batch.Drive | src/main.rs:785-815 | the loop runs at most the remaining files, and a failure has run at least one |
| Batch.DriveFailsFast | src/main.rs:785-815 | all items that ran succeeded except possibly the last; the loop succeeds iff every remaining file ran and succeeded; a failure is the last item's |
| Batch.DriveStopsAtFailure | src/main.rs:799-811 | the items before the last succeeded, and a failed loop fails with its last item's result |
| Batch.DriveOkRunsAll | src/main.rs:785-815 | the loop succeeds iff every remaining file ran and succeeded |
| Batch.DriveDisk | src/main.rs:785-798 | the loop ends on the disk the last item that ran left |
| Batch.DriveItem | src/main.rs:785-798 | the j-th item is the conversion of the j-th remaining file, started after every earlier item's tool runs, on the previous item's disk |
| Batch.ConsShift | src/main.rs:785-798 | prefixing an item shifts run counts and starting disks by that item |
| Batch.DriveLog | src/main.rs:785-815 | the loop's log is each item's block in order, then the final entry iff the loop succeeded |
| Batch.LastBlock | src/main.rs:799-814 | the blocks end with the last item's completion or failure entry |
| Batch.RunQueue | src/main.rs:771-821 | the log starts with the header; the batch succeeds iff every file ran and succeeded, and then ends with the all-done entry; otherwise it ran the files up to the first failure, returns "Batch processing failed at file k: e", and logs the failure last |
| Batch.RunBatch | src/main.rs:771-821 | `process_video_queue_with_logs`: the j-th item is `process_video_with_logs` of the j-th queued file, after all earlier tool runs and on the disk the previous file left; the batch ends on the last file's disk |
| Batch.QueueLog | src/main.rs:777-820 | the batch log is the header, each file's progress, own-log and completion or failure entries in queue order, then the all-done entry iff it succeeded |
| Batch.QueueLogStart | src/main.rs:780-782 | the first log line is "Starting batch processing of N files..." |
| Batch.QueueLogEnd | src/main.rs:801-819 | the last log line is the all-done line on success and "File processing failed: e" on failure |
| Batch.FlattenLastLine | src/main.rs:777-820 | a log whose last entry renders to one line ends with that line |
| Batch.FlattenSnoc | src/main.rs:777-820 | rendering one more entry appends exactly its lines |
| Batch.QueueRunsInOrder | src/main.rs:785-798 | the batch converts the queued files in order, each after all earlier tool runs and on the previous file's disk, and ends on the last file's disk |
| Batch.QueueItem | src/main.rs:785-798 | the j-th item of the batch converts the j-th queued file after all earlier tool runs and on the previous file's disk |
| Batch.QueueDisk | src/main.rs:785-798 | the batch ends on the disk the last file that ran left |
| Batch.BetweenStep | src/main.rs:791-815 | a file that converts keeps the loop invariant: the log so far, then the rest of the loop, is the whole batch log |
| Batch.BetweenStop | src/main.rs:799-811 | a file that fails completes the whole batch log with its block and ends the batch with its result |
| Batch.QueueLoop | src/main.rs:771-821 | the loop computes the header, the entries of `Drive` and the batch's failure message |
| Batch.ProcessQueue | src/main.rs:771-821 | the iterative batch returns exactly the result and the rendered log of `RunQueue` |
| AppModel.Initial | src/main.rs:63-78 | the window opens with an empty queue, no folder, no subtitles, 23.976 fps, not processing, file index 0, progress 0.0 and empty logs |
| AppModel.RemoveAt | src/main.rs:129-134 | removal takes out one element, keeps those before it and shifts those after it down by one |
| AppModel.Update | src/main.rs:116-230 | the batch task is issued iff the message is StartProcessing and the guard holds; the two dialogs iff their select messages |
| AppModel.QueueChangesOnlyByQueueMessages | src/main.rs:116-230 | only the four queue messages change the queue; only the folder message changes the folder; only the two option messages change the options |
| AppModel.FilesAreAppended | src/main.rs:121-128 | selected and dropped files are appended in order, and nothing else changes |
| AppModel.RemoveKeepsOrder | src/main.rs:129-134 | an in-range remove takes out exactly that entry (multiset) and keeps the others' order; an out-of-range index changes nothing |
| AppModel.StartGuard | src/main.rs:154-174 | with files and a folder, start sets processing, resets the index and progress, clears both logs and hands over the queue and settings; otherwise start changes nothing, and both directions hold |
| AppModel.RestartWhileProcessing | src/main.rs:154-163 | the handler ignores `processing`: a start during a run starts again and clears the terminal log |
| AppModel.ClearedQueueDoesNotStart | src/main.rs:135-174 | after ClearQueue, start does nothing |
| AppModel.CompletionAppendsLogs | src/main.rs:211-228 | completion appends the batch lines to the terminal log, clears processing, adds the success or failure line, and sets progress to 1.0 or 0.0 |
| AppModel.CompletionWithoutLogs | src/main.rs:183-198 | the completion without logs updates status, log and bar like the one with an empty log |
| AppModel.StartThenComplete | src/main.rs:154-228 | a start followed by a batch's completion leaves exactly that batch's log in the terminal, one status line, progress 1.0 iff success, and the queue and settings unchanged |
| AppModel.StartRunsQueue | src/main.rs:154-170 | the started task performs `process_video_queue_with_logs` on the current queue, folder, frame rate and subtitle choice |
| AppModel.Dropped | src/main.rs:102-114 | a dropped file becomes a one-file drop of that file iff it has an extension spelt m/M, k/K/Kelvin sign, v/V; a file without extension, any other extension and any other event become an empty drop |
| AppModel.MkvSpellings | src/main.rs:104-107 | the comparison of the lower-cased extension with "mkv" accepts exactly the three-letter spellings m/M, k/K/Kelvin sign, v/V |
| AppModel.DropsQueueOnlyMkv | src/main.rs:102-128 | a drop appends only MKV files to the queue and changes nothing else |
| AppModel.MkvInAnyCase | src/main.rs:104-107 | "mkv", "MKV", "mKv" and the Kelvin-sign spelling pass the filter; "mp4", "mkvv" and "" do not |

## Left out

- Process spawning (`execute_command`, src/main.rs:503-520) is not modelled, including the Windows `cmd /C` string. A run's outcome comes from the oracle, and a succeeding tool is taken to write exactly its output file.
- Partial outputs of failed tools are not modelled. A failing tool leaves the disk unchanged.
- `std::env::temp_dir` is the `tempDir` parameter of `Job`.
- `Path` semantics are reduced to `file_name`, `file_stem`, `extension` and `join` on strings with a `/` separator. The file name is supplied with the path as `InputFile.fileName` and is not derived from the path.
- Lossy UTF-8 conversion is not modelled. Paths and stderr are strings.
- Every queued path has a file name (`Batch.Named`, the precondition of `ProcessItem`), because `file_stem().unwrap()` panics otherwise. `ShownName` does model `unwrap_or_default` for the progress line.
- `progress` is a `real`, not an `f32`. The completion arms set only 0.0 and 1.0, both exact in `f32`, and `ProcessingProgress` stores its value as given.
- `async` and `.await` are not modelled: each await runs to completion in order.
- The dialogs (`select_input_files`, `select_output_folder`) are represented only by the tasks they start and by the messages carrying their results.
- The view, widget styling, `load_svg_icon` and `main` are not modelled.
- The subscription is modelled only for the drop filter.
- `AppModel.LowerLetter`: `to_lowercase` is modelled only for the characters whose lower case can be `m`, `k` or `v`: the ASCII capitals and the Kelvin sign. That is all the comparison with "mkv" can see.
- Clean-up runs only when the item succeeds. Every early return of `process_video_with_logs` skips it, and `_subs.mp4` is never deleted.
- The batch properties are proved for any per-file conversion (`Batch.Converter`). `RunBatch` connects them to `ProcessItem`.
- `Batch.ProcessQueue` appends log entries and renders them on return. The Rust code appends the rendered strings as it goes, and the two give the same lines (`Batch.FlattenAppend`).

=== FILE: app.dfy ===
/** The application state and its message handler (`App::update`), and
    the filter that turns a dropped file into a queue message
    (`App::subscription`). The dialogs and the batch run asynchronously
    in the Rust code; here a task is returned as data and its completion is
    the message fed back to `Update`. */
module AppModel {
  import opened Results
  import opened PathNames
  import opened FrameRates
  import opened Pipeline
  import opened Batch

  /** The window's state. `progress` is an `f32` in the Rust code. */
  datatype App = App(
    queue: seq<InputFile>,
    outputFolder: Option<string>,
    includeSubtitles: bool,
    frameRate: FrameRate,
    processing: bool,
    currentFileIndex: nat,
    progress: real,
    logMessages: seq<string>,
    terminalLogs: seq<string>)

  /** The state the window opens with (`App::default`). */
  function Initial(): (a: App)
    ensures a.queue == [] && a.outputFolder.None? && !a.processing
    ensures a.frameRate == Film23976 && !a.includeSubtitles
    ensures a.logMessages == [] && a.terminalLogs == []
    ensures a.currentFileIndex == 0 && a.progress == 0.0
  {
    App([], None, false, Film23976, false, 0, 0.0, [], [])
  }

  datatype Message =
    | SelectInputFiles
    | InputFilesSelected(files: seq<InputFile>)
    | FilesDropped(files: seq<InputFile>)
    | RemoveFileFromQueue(index: nat)
    | ClearQueue
    | SelectOutputFolder
    | OutputFolderSelected(folder: Option<string>)
    | ToggleSubtitles(enabled: bool)
    | FrameRateSelected(rate: FrameRate)
    | StartProcessing
    | ProcessingStep(step: string)
    | ProcessingProgress(value: real)
    | ProcessingComplete(result: Status)
    | ClearLog
    | TerminalOutput(output: string)
    | ClearTerminal
    | ProcessingCompleteWithLogs(result: Status, logs: seq<string>)

  /** The work `update` hands back to the runtime: nothing, one of the two
      dialogs, or the batch over a snapshot of the settings. */
  datatype Task =
    | NoTask
    | PickInputFiles
    | PickOutputFolder
    | RunFiles(files: seq<InputFile>, output: string, frameRate: FrameRate, includeSubtitles: bool)

  datatype Step = Step(app: App, task: Task)

  /** The start button's condition, which the handler checks again. */
  predicate CanStart(a: App) {
    |a.queue| > 0 && a.outputFolder.Some?
  }

  /** `Vec::remove` at `index`; the handler only calls it in range. */
  function RemoveAt(q: seq<InputFile>, index: nat): (r: seq<InputFile>)
    requires index < |q|
    ensures |r| == |q| - 1
    ensures forall k :: 0 <= k < index ==> r[k] == q[k]
    ensures forall k :: index <= k < |r| ==> r[k] == q[k + 1]
  {
    q[..index] + q[index + 1..]
  }

  const SuccessMessage := "✅ Processing completed successfully!"

  function FailureMessage(reason: string): string {
    "❌ Processing failed: " + reason
  }

  /** What both completion messages do to the status log and the bar. */
  function Finished(a: App, result: Status): App {
    if result.Ok? then
      a.(processing := false, logMessages := a.logMessages + [SuccessMessage], progress := 1.0)
    else
      a.(processing := false, logMessages := a.logMessages + [FailureMessage(result.reason)], progress := 0.0)
  }

  function Update(a: App, m: Message): (r: Step)
    ensures r.task.RunFiles? <==> m.StartProcessing? && CanStart(a)
    ensures r.task.PickInputFiles? <==> m.SelectInputFiles?
    ensures r.task.PickOutputFolder? <==> m.SelectOutputFolder?
  {
    match m
    case SelectInputFiles => Step(a, PickInputFiles)
    case InputFilesSelected(files) => Step(a.(queue := a.queue + files), NoTask)
    case FilesDropped(files) => Step(a.(queue := a.queue + files), NoTask)
    case RemoveFileFromQueue(index) =>
      if index < |a.queue| then Step(a.(queue := RemoveAt(a.queue, index)), NoTask)
      else Step(a, NoTask)
    case ClearQueue => Step(a.(queue := []), NoTask)
    case SelectOutputFolder => Step(a, PickOutputFolder)
    case OutputFolderSelected(folder) => Step(a.(outputFolder := folder), NoTask)
    case ToggleSubtitles(enabled) => Step(a.(includeSubtitles := enabled), NoTask)
    case FrameRateSelected(rate) => Step(a.(frameRate := rate), NoTask)
    case StartProcessing =>
      if CanStart(a) then
        Step(a.(processing := true, currentFileIndex := 0, progress := 0.0, logMessages := [], terminalLogs := []),
             RunFiles(a.queue, a.outputFolder.value, a.frameRate, a.includeSubtitles))
      else Step(a, NoTask)
    case ProcessingStep(step) => Step(a.(logMessages := a.logMessages + [step]), NoTask)
    case ProcessingProgress(value) => Step(a.(progress := value), NoTask)
    case ProcessingComplete(result) => Step(Finished(a, result), NoTask)
    case ClearLog => Step(a.(logMessages := []), NoTask)
    case TerminalOutput(output) => Step(a.(terminalLogs := a.terminalLogs + [output]), NoTask)
    case ClearTerminal => Step(a.(terminalLogs := []), NoTask)
    case ProcessingCompleteWithLogs(result, logs) =>
      Step(Finished(a.(terminalLogs := a.terminalLogs + logs), result), NoTask)
  }

  /** Only the four queue messages touch the queue, and only
      `OutputFolderSelected` touches the output folder. */
  lemma QueueChangesOnlyByQueueMessages(a: App, m: Message)
    ensures !(m.InputFilesSelected? || m.FilesDropped? || m.RemoveFileFromQueue? || m.ClearQueue?) ==>
      Update(a, m).app.queue == a.queue
    ensures !m.OutputFolderSelected? ==> Update(a, m).app.outputFolder == a.outputFolder
    ensures !(m.FrameRateSelected? || m.ToggleSubtitles?) ==>
      Update(a, m).app.frameRate == a.frameRate && Update(a, m).app.includeSubtitles == a.includeSubtitles
  {
  }

  /** Selected and dropped files go to the end of the queue, in order,
      and nothing else changes. */
  lemma FilesAreAppended(a: App, files: seq<InputFile>)
    ensures var r := Update(a, InputFilesSelected(files)).app;
      r == a.(queue := r.queue) && |r.queue| == |a.queue| + |files|
      && (forall k :: 0 <= k < |a.queue| ==> r.queue[k] == a.queue[k])
      && (forall k :: 0 <= k < |files| ==> r.queue[|a.queue| + k] == files[k])
    ensures Update(a, FilesDropped(files)).app == Update(a, InputFilesSelected(files)).app
  {
  }

  /** Removing an entry keeps the others in their order and takes exactly
      that one entry out; an index past the end changes nothing. */
  lemma RemoveKeepsOrder(a: App, index: nat)
    ensures var r := Update(a, RemoveFileFromQueue(index)).app;
      && r == a.(queue := r.queue)
      && (index >= |a.queue| ==> r.queue == a.queue)
      && (index < |a.queue| ==>
            && |r.queue| == |a.queue| - 1
            && (forall k :: 0 <= k < index ==> r.queue[k] == a.queue[k])
            && (forall k :: index <= k < |r.queue| ==> r.queue[k] == a.queue[k + 1])
            && multiset(r.queue) + multiset{a.queue[index]} == multiset(a.queue))
  {
    if index < |a.queue| {
      var q := a.queue;
      assert q == q[..index] + [q[index]] + q[index + 1..];
    }
  }

  /** The handler's start guard: with files queued and a folder chosen it
      marks the run as started, clears both logs and hands the batch the
      current queue and settings; otherwise nothing happens. */
  lemma StartGuard(a: App)
    ensures var s := Update(a, StartProcessing);
      && (CanStart(a) ==>
            && s.app.processing && s.app.currentFileIndex == 0 && s.app.progress == 0.0
            && s.app.logMessages == [] && s.app.terminalLogs == []
            && s.app.queue == a.queue && s.app.outputFolder == a.outputFolder
            && s.task == RunFiles(a.queue, a.outputFolder.value, a.frameRate, a.includeSubtitles))
      && (!CanStart(a) <==> s == Step(a, NoTask))
  {
  }

  /** The handler does not look at `processing`: a second start while a
      batch runs resets the logs again. Only the view, which hides the
      button while processing, prevents it. */
  lemma RestartWhileProcessing(a: App)
    requires a.processing && CanStart(a) && a.terminalLogs != []
    ensures Update(a, StartProcessing).task.RunFiles?
    ensures Update(a, StartProcessing).app.terminalLogs == []
  {
  }

  /** An emptied queue cannot be started, whatever else is set. */
  lemma ClearedQueueDoesNotStart(a: App)
    ensures var cleared := Update(a, ClearQueue).app;
      Update(cleared, StartProcessing) == Step(cleared, NoTask)
  {
  }

  /** The batch's completion: its log lines go after the terminal log,
      the run is over, and the status log gains the success line (bar
      full) or the failure line with the reason (bar empty). */
  lemma CompletionAppendsLogs(a: App, result: Status, logs: seq<string>)
    ensures var r := Update(a, ProcessingCompleteWithLogs(result, logs));
      && r.task.NoTask? && !r.app.processing
      && r.app.terminalLogs == a.terminalLogs + logs
      && r.app.queue == a.queue && r.app.outputFolder == a.outputFolder
      && |r.app.logMessages| == |a.logMessages| + 1
      && r.app.logMessages[..|a.logMessages|] == a.logMessages
      && r.app.logMessages[|a.logMessages|]
           == (if result.Ok? then "✅ Processing completed successfully!" else "❌ Processing failed: " + result.reason)
      && r.app.progress == (if result.Ok? then 1.0 else 0.0)
  {
    var r := Update(a, ProcessingCompleteWithLogs(result, logs));
    assert r.app.logMessages[..|a.logMessages|] == a.logMessages;
  }

  /** The completion without logs does the same to the status log and
      leaves the terminal log alone. */
  lemma CompletionWithoutLogs(a: App, result: Status)
    ensures var r := Update(a, ProcessingComplete(result)).app;
      r == Update(a, ProcessingCompleteWithLogs(result, [])).app
  {
    assert a.terminalLogs + [] == a.terminalLogs;
  }

  /** The batch a `RunFiles` task performs: `process_video_queue_with_logs`
      over the task's files and settings. */
  function Perform(t: Task, tempDir: string, oracle: Oracle, disk: set<string>): BatchRun
    requires t.RunFiles? && Named(t.files)
  {
    RunBatch(Job(t.output, t.frameRate, t.includeSubtitles, tempDir), t.files, oracle, disk)
  }

  /** The message a finished batch is delivered as. */
  function Completion(b: BatchRun): Message {
    ProcessingCompleteWithLogs(b.result, Flatten(b.entries))
  }

  /** Start followed by the completion of a batch: the terminal log is
      exactly that batch's log, the status log holds the one completion
      line, and the queue and settings are as they were. Whatever the
      batch did, this holds; `Perform` says which batch it is. */
  lemma StartThenComplete(a: App, b: BatchRun)
    requires CanStart(a)
    ensures var s := Update(a, StartProcessing);
      var f := Update(s.app, Completion(b)).app;
      && f.terminalLogs == Flatten(b.entries)
      && !f.processing
      && |f.logMessages| == 1
      && (f.progress == 1.0 <==> b.result.Ok?)
      && f == a.(processing := false, currentFileIndex := 0, progress := f.progress,
                 logMessages := f.logMessages, terminalLogs := f.terminalLogs)
  {
  }

  /** The batch a start hands over is the current queue with the current
      folder, frame rate and subtitle choice. */
  lemma StartRunsQueue(a: App, tempDir: string, oracle: Oracle, disk: set<string>)
    requires CanStart(a) && Named(a.queue)
    ensures var t := Update(a, StartProcessing).task;
      t.RunFiles? && Named(t.files)
      && Perform(t, tempDir, oracle, disk)
         == RunBatch(Job(a.outputFolder.value, a.frameRate, a.includeSubtitles, tempDir), a.queue, oracle, disk)
  {
  }

  /** A dropped file, as the window reports it, or any other event. */
  datatype Event = FileDropped(file: InputFile) | OtherEvent

  /** Rust's `to_lowercase` restricted to the characters whose lower case
      is one of `m`, `k`, `v`: the ASCII capitals and the Kelvin sign. Other
      characters are kept, which never makes them equal to those letters. */
  function LowerLetter(c: char): char {
    if 'A' <= c <= 'Z' then (c as int + 32) as char
    else if c == '\U{212A}' then 'k'
    else c
  }

  /** The extension is "mkv" in any case. */
  predicate IsMkv(ext: string) {
    |ext| == 3 && LowerLetter(ext[0]) == 'm' && LowerLetter(ext[1]) == 'k' && LowerLetter(ext[2]) == 'v'
  }

  /** The file has an extension and it is "mkv" in any case. */
  predicate HasMkvExtension(f: InputFile) {
    f.fileName.Some? && Extension(f.fileName.value).Some? && IsMkv(Extension(f.fileName.value).value)
  }

  /** The spellings `to_lowercase` maps to "mkv": each letter in either
      case, and the Kelvin sign for the `k`. */
  predicate MkvSpelling(ext: string) {
    && |ext| == 3
    && (ext[0] == 'm' || ext[0] == 'M')
    && (ext[1] == 'k' || ext[1] == 'K' || ext[1] == '\U{212A}')
    && (ext[2] == 'v' || ext[2] == 'V')
  }

  /** The case-insensitive comparison accepts exactly those spellings. */
  lemma MkvSpellings(ext: string)
    ensures IsMkv(ext) <==> MkvSpelling(ext)
  {
    if |ext| == 3 {
      LowerLetterIs(ext[0], 'm');
      LowerLetterIs(ext[1], 'k');
      LowerLetterIs(ext[2], 'v');
    }
  }

  /** Which characters lower-case to one of the three letters. */
  lemma LowerLetterIs(c: char, l: char)
    requires l == 'm' || l == 'k' || l == 'v'
    ensures LowerLetter(c) == l <==>
      c == l || c == (l as int - 32) as char || (l == 'k' && c == '\U{212A}')
  {
  }

  /** The subscription: a dropped file whose extension is spelt "mkv" in
      any case becomes a one-file drop of that file; any other file, a
      file without extension and any other event give an empty drop. */
  function Dropped(e: Event): (m: Message)
    ensures m.FilesDropped? && |m.files| <= 1
    ensures |m.files| == 1 <==>
      && e.FileDropped?
      && e.file.fileName.Some?
      && Extension(e.file.fileName.value).Some?
      && MkvSpelling(Extension(e.file.fileName.value).value)
    ensures |m.files| == 1 ==> m.files[0] == e.file
  {
    if e.FileDropped? && e.file.fileName.Some? && Extension(e.file.fileName.value).Some? then
      MkvSpellings(Extension(e.file.fileName.value).value);
      if HasMkvExtension(e.file) then FilesDropped([e.file]) else FilesDropped([])
    else FilesDropped([])
  }

  /** A drop adds only MKV files to the queue, and nothing else changes. */
  lemma DropsQueueOnlyMkv(a: App, e: Event)
    ensures var r := Update(a, Dropped(e)).app;
      && r == a.(queue := r.queue)
      && r.queue[..|a.queue|] == a.queue
      && forall k :: |a.queue| <= k < |r.queue| ==> HasMkvExtension(r.queue[k])
  {
    var r := Update(a, Dropped(e)).app;
    assert r.queue[..|a.queue|] == a.queue;
  }

  /** Upper-case and mixed-case extensions pass the filter; a name with
      no extension or another extension does not. */
  lemma MkvInAnyCase()
    ensures IsMkv("mkv") && IsMkv("MKV") && IsMkv("mKv")
    ensures IsMkv("m\U{212A}v")
    ensures !IsMkv("mp4") && !IsMkv("mkvv") && !IsMkv("")
  {
  }
}

=== FILE: batch.dfy ===
/** `process_video_queue_with_logs`: the files of the queue are converted
    one after another with the same settings, and the first failure ends
    the batch. The batch log frames each item's own log with a progress
    line before it and a completion or failure line after it.

    The batch log is kept as entries, one per `format!` of the Rust code,
    and rendered to its lines by `Flatten`. */
module Batch {
  import opened Results
  import opened Text
  import opened Pipeline

  /** Every queued path has a file name; the conversion unwraps the file
      stem and cannot proceed without one. */
  predicate Named(queue: seq<InputFile>) {
    forall k :: 0 <= k < |queue| ==> queue[k].fileName.Some?
  }

  /** One entry of the batch log. Positions count from zero and are shown
      counting from one. */
  datatype Entry =
    | Header(total: nat)
    | Starting(index: nat, total: nat, name: string)
    | ItemLog(lines: seq<string>)
    | Completed(index: nat, total: nat)
    | ItemFailed(reason: string)
    | AllDone(total: nat)

  /** The lines an entry contributes to the batch log. */
  function Render(e: Entry): seq<string>
  {
    match e
    case Header(n) => ["Starting batch processing of " + Decimal(n) + " files..."]
    case Starting(i, n, name) => ["Processing file " + Decimal(i + 1) + "/" + Decimal(n) + ": " + name]
    case ItemLog(lines) => lines
    case Completed(i, n) => ["✅ File " + Decimal(i + 1) + "/" + Decimal(n) + " completed"]
    case ItemFailed(reason) => ["File processing failed: " + reason]
    case AllDone(n) => ["🎉 All " + Decimal(n) + " files processed successfully!"]
  }

  function Flatten(es: seq<Entry>): seq<string>
    decreases |es|
  {
    if |es| == 0 then [] else Render(es[0]) + Flatten(es[1..])
  }

  /** Rendering distributes over concatenation of entries. */
  lemma {:induction false} FlattenAppend(a: seq<Entry>, b: seq<Entry>)
    ensures Flatten(a + b) == Flatten(a) + Flatten(b)
    decreases |a|
  {
    if |a| > 0 {
      assert (a + b)[1..] == a[1..] + b;
      FlattenAppend(a[1..], b);
    } else {
      assert a + b == b;
    }
  }

  /** The shown name is the file name, or empty without one
      (`unwrap_or_default`). */
  function ShownName(f: InputFile): string {
    if f.fileName.Some? then f.fileName.value else ""
  }

  function BatchFailure(i: nat, e: string): string {
    "Batch processing failed at file " + Decimal(i + 1) + ": " + e
  }

  /** The outcome of a batch, its log entries, the items that ran in
      queue order and the disk afterwards. */
  datatype BatchRun = BatchRun(result: Status, entries: seq<Entry>, items: seq<ItemRun>, disk: set<string>)

  /** Number of tool runs of the first `j` items. */
  function RunsBefore(items: seq<ItemRun>, j: nat): nat
    requires j <= |items|
  {
    if j == 0 then 0 else RunsBefore(items, j - 1) + |items[j - 1].trace.calls|
  }

  /** The disk an item starts from: the batch's disk for the first item,
      the previous item's disk afterwards. */
  function DiskBefore(disk: set<string>, items: seq<ItemRun>, j: nat): set<string>
    requires j <= |items|
  {
    if j == 0 then disk else items[j - 1].trace.disk
  }

  /** A per-file conversion: the file, the number of tool runs the batch
      has made before it, and the disk it starts from. */
  type Converter = (InputFile, nat, set<string>) --> ItemRun

  /** `convert` accepts every queued file. */
  ghost predicate Accepts(convert: Converter, queue: seq<InputFile>) {
    forall k, b, d :: 0 <= k < |queue| ==> convert.requires(queue[k], b, d)
  }

  /** The conversion `process_video_queue_with_logs` applies to each file. */
  function ItemStep(job: Job, oracle: Oracle): Converter {
    (f: InputFile, b: nat, d: set<string>) requires f.fileName.Some? => ProcessItem(job, f, oracle, b, d)
  }

  /** The entries written about the item of file `i` of `n`: its progress
      line, its own log, then its completion or failure line. */
  function Block(n: nat, i: nat, f: InputFile, item: ItemRun): seq<Entry> {
    [Starting(i, n, ShownName(f)), ItemLog(item.trace.logs),
     if item.result.Ok? then Completed(i, n) else ItemFailed(item.result.reason)]
  }

  /** The loop from the `i`-th file on, `base` tool runs into the batch:
      convert the file, log its block, and stop at the first failure with
      that file's result. */
  function Drive(convert: Converter, queue: seq<InputFile>, i: nat, base: nat, disk: set<string>): (r: BatchRun)
    requires i <= |queue| && Accepts(convert, queue)
    ensures |r.items| <= |queue| - i
    ensures r.result.Err? ==> |r.items| > 0
    decreases |queue| - i
  {
    if i == |queue| then BatchRun(Ok, [AllDone(|queue|)], [], disk)
    else
      var item := convert(queue[i], base, disk);
      var block := Block(|queue|, i, queue[i], item);
      if item.result.Err? then
        BatchRun(item.result, block, [item], item.trace.disk)
      else
        var rest := Drive(convert, queue, i + 1, base + |item.trace.calls|, item.trace.disk);
        BatchRun(rest.result, block + rest.entries, [item] + rest.items, rest.disk)
  }

  /** Fail fast: the items that ran all succeeded except possibly the
      last, the loop succeeds iff every remaining file ran and succeeded,
      and a failure is the last item's. */
  lemma DriveFailsFast(convert: Converter, queue: seq<InputFile>, i: nat, base: nat, disk: set<string>)
    requires i <= |queue| && Accepts(convert, queue)
    ensures var r := Drive(convert, queue, i, base, disk);
      && (forall k :: 0 <= k < |r.items| - 1 ==> r.items[k].result.Ok?)
      && (r.result.Ok? <==> |r.items| == |queue| - i && forall k :: 0 <= k < |r.items| ==> r.items[k].result.Ok?)
      && (r.result.Err? ==>
            && r.items[|r.items| - 1].result.Err?
            && r.result == r.items[|r.items| - 1].result)
  {
    DriveStopsAtFailure(convert, queue, i, base, disk);
    DriveOkRunsAll(convert, queue, i, base, disk);
  }

  /** The items before the last succeeded, and a failed loop failed with
      its last item's result. */
  lemma {:induction false} DriveStopsAtFailure(convert: Converter, queue: seq<InputFile>, i: nat, base: nat, disk: set<string>)
    requires i <= |queue| && Accepts(convert, queue)
    ensures var r := Drive(convert, queue, i, base, disk);
      && (forall k :: 0 <= k < |r.items| - 1 ==> r.items[k].result.Ok?)
      && (r.result.Err? ==>
            && r.items[|r.items| - 1].result.Err?
            && r.result == r.items[|r.items| - 1].result)
    decreases |queue| - i
  {
    if i < |queue| {
      var item := convert(queue[i], base, disk);
      var r := Drive(convert, queue, i, base, disk);
      if item.result.Ok? {
        var b := base + |item.trace.calls|;
        var rest := Drive(convert, queue, i + 1, b, item.trace.disk);
        DriveStopsAtFailure(convert, queue, i + 1, b, item.trace.disk);
        assert r.items == [item] + rest.items;
        assert forall k :: 1 <= k < |r.items| ==> r.items[k] == rest.items[k - 1];
      }
    }
  }

  /** A successful loop ran every remaining file, and each succeeded. */
  lemma {:induction false} DriveOkRunsAll(convert: Converter, queue: seq<InputFile>, i: nat, base: nat, disk: set<string>)
    requires i <= |queue| && Accepts(convert, queue)
    ensures var r := Drive(convert, queue, i, base, disk);
      r.result.Ok? <==> |r.items| == |queue| - i && forall k :: 0 <= k < |r.items| ==> r.items[k].result.Ok?
    decreases |queue| - i
  {
    if i < |queue| {
      var item := convert(queue[i], base, disk);
      var r := Drive(convert, queue, i, base, disk);
      if item.result.Ok? {
        var b := base + |item.trace.calls|;
        var rest := Drive(convert, queue, i + 1, b, item.trace.disk);
        DriveOkRunsAll(convert, queue, i + 1, b, item.trace.disk);
        assert r.items == [item] + rest.items;
        assert r.items[0] == item;
        assert forall k :: 1 <= k < |r.items| ==> r.items[k] == rest.items[k - 1];
        assert forall k :: 0 <= k < |rest.items| ==> rest.items[k] == r.items[k + 1];
      } else {
        assert r.items[0] == item;
      }
    }
  }

  /** The loop ends on the disk the last item that ran left. */
  lemma {:induction false} DriveDisk(convert: Converter, queue: seq<InputFile>, i: nat, base: nat, disk: set<string>)
    requires i <= |queue| && Accepts(convert, queue)
    ensures var r := Drive(convert, queue, i, base, disk);
      r.disk == DiskBefore(disk, r.items, |r.items|)
    decreases |queue| - i
  {
    if i < |queue| {
      var item := convert(queue[i], base, disk);
      var r := Drive(convert, queue, i, base, disk);
      if item.result.Ok? {
        var b := base + |item.trace.calls|;
        var rest := Drive(convert, queue, i + 1, b, item.trace.disk);
        DriveDisk(convert, queue, i + 1, b, item.trace.disk);
        assert r.items == [item] + rest.items;
        if |rest.items| > 0 {
          assert r.items[|r.items| - 1] == rest.items[|rest.items| - 1];
        }
      }
    }
  }

  /** The j-th item of the loop is the conversion of the j-th remaining
      file, starting at the oracle position after every earlier item's
      tool runs and on the disk the previous item left. */
  lemma {:induction false} DriveItem(convert: Converter, queue: seq<InputFile>, i: nat, base: nat, disk: set<string>, j: nat)
    requires i <= |queue| && Accepts(convert, queue)
    requires j < |Drive(convert, queue, i, base, disk).items|
    ensures var r := Drive(convert, queue, i, base, disk);
      r.items[j] == convert(queue[i + j], base + RunsBefore(r.items, j), DiskBefore(disk, r.items, j))
    decreases j
  {
    var r := Drive(convert, queue, i, base, disk);
    var item := convert(queue[i], base, disk);
    if j == 0 {
    } else {
      var b := base + |item.trace.calls|;
      var rest := Drive(convert, queue, i + 1, b, item.trace.disk);
      assert r.items == [item] + rest.items;
      DriveItem(convert, queue, i + 1, b, item.trace.disk, j - 1);
      ConsShift(item, rest.items, j, disk);
    }
  }

  /** Putting an item in front shifts positions, run counts and starting
      disks by that item. */
  lemma {:induction false} ConsShift(item: ItemRun, rest: seq<ItemRun>, j: nat, disk: set<string>)
    requires 1 <= j <= |rest| + 1
    ensures RunsBefore([item] + rest, j) == |item.trace.calls| + RunsBefore(rest, j - 1)
    ensures DiskBefore(disk, [item] + rest, j) == DiskBefore(item.trace.disk, rest, j - 1)
    decreases j
  {
    if j > 1 {
      ConsShift(item, rest, j - 1, disk);
      assert ([item] + rest)[j - 1] == rest[j - 2];
    }
  }

  function Blocks(n: nat, queue: seq<InputFile>, i: nat, items: seq<ItemRun>): seq<Entry>
    requires i + |items| <= |queue|
    decreases |items|
  {
    if |items| == 0 then [] else Block(n, i, queue[i], items[0]) + Blocks(n, queue, i + 1, items[1..])
  }

  /** The loop's log is the items' blocks in order, followed by the final
      entry exactly when the batch succeeded. */
  lemma {:induction false} DriveLog(convert: Converter, queue: seq<InputFile>, i: nat, base: nat, disk: set<string>)
    requires i <= |queue| && Accepts(convert, queue)
    ensures var r := Drive(convert, queue, i, base, disk);
      r.entries == Blocks(|queue|, queue, i, r.items) + (if r.result.Ok? then [AllDone(|queue|)] else [])
    decreases |queue| - i
  {
    var r := Drive(convert, queue, i, base, disk);
    if i < |queue| {
      var item := convert(queue[i], base, disk);
      if item.result.Ok? {
        var b := base + |item.trace.calls|;
        var rest := Drive(convert, queue, i + 1, b, item.trace.disk);
        DriveLog(convert, queue, i + 1, b, item.trace.disk);
        assert r.items[1..] == rest.items;
      } else {
        assert r.items[1..] == [];
      }
    }
  }

  /** The blocks of some items end with the last item's completion or
      failure entry. */
  lemma {:induction false} LastBlock(n: nat, queue: seq<InputFile>, i: nat, items: seq<ItemRun>)
    requires i + |items| <= |queue| && |items| > 0
    ensures var bs := Blocks(n, queue, i, items);
      var last := items[|items| - 1];
      |bs| >= 3 && bs[|bs| - 1] == (if last.result.Ok? then Completed(i + |items| - 1, n) else ItemFailed(last.result.reason))
    decreases |items|
  {
    if |items| > 1 {
      LastBlock(n, queue, i + 1, items[1..]);
    }
  }

  /** The whole batch with any per-file conversion: the header, then the
      loop from the first file and the batch's first tool run. It
      succeeds iff every file ran and succeeded, and then logs the final
      entry last; otherwise it stopped at the first failure, names that
      file's position and reason, and logs the failure last. */
  function RunQueue(convert: Converter, queue: seq<InputFile>, disk: set<string>): (r: BatchRun)
    requires Accepts(convert, queue)
    ensures |r.entries| >= 2 && r.entries[0] == Header(|queue|)
    ensures r.result.Ok? <==>
      |r.items| == |queue| && forall k :: 0 <= k < |r.items| ==> r.items[k].result.Ok?
    ensures r.result.Ok? ==> r.entries[|r.entries| - 1] == AllDone(|queue|)
    ensures r.result.Err? ==>
      && 0 < |r.items| <= |queue|
      && (forall k :: 0 <= k < |r.items| - 1 ==> r.items[k].result.Ok?)
      && r.items[|r.items| - 1].result.Err?
      && r.result.reason == BatchFailure(|r.items| - 1, r.items[|r.items| - 1].result.reason)
      && r.entries[|r.entries| - 1] == ItemFailed(r.items[|r.items| - 1].result.reason)
  {
    var d := Drive(convert, queue, 0, 0, disk);
    DriveFailsFast(convert, queue, 0, 0, disk);
    DriveLog(convert, queue, 0, 0, disk);
    if d.result.Err? then
      LastBlock(|queue|, queue, 0, d.items);
      BatchRun(Err(BatchFailure(|d.items| - 1, d.result.reason)), [Header(|queue|)] + d.entries, d.items, d.disk)
    else BatchRun(Ok, [Header(|queue|)] + d.entries, d.items, d.disk)
  }

  /** The batch log, entry for entry: the header, each item's block in
      queue order, and the final entry iff the batch succeeded. */
  lemma QueueLog(convert: Converter, queue: seq<InputFile>, disk: set<string>)
    requires Accepts(convert, queue)
    ensures var r := RunQueue(convert, queue, disk);
      r.entries == [Header(|queue|)] + Blocks(|queue|, queue, 0, r.items)
        + (if r.result.Ok? then [AllDone(|queue|)] else [])
  {
    QueueIsLoop(convert, queue, disk);
    HeadedLog(convert, queue, disk);
  }

  lemma HeadedLog(convert: Converter, queue: seq<InputFile>, disk: set<string>)
    requires Accepts(convert, queue)
    ensures var d := Drive(convert, queue, 0, 0, disk);
      [Header(|queue|)] + d.entries == [Header(|queue|)] + Blocks(|queue|, queue, 0, d.items)
        + (if d.result.Ok? then [AllDone(|queue|)] else [])
  {
    var d := Drive(convert, queue, 0, 0, disk);
    DriveLog(convert, queue, 0, 0, disk);
    var blocks := Blocks(|queue|, queue, 0, d.items);
    var tail := if d.result.Ok? then [AllDone(|queue|)] else [];
    assert [Header(|queue|)] + (blocks + tail) == [Header(|queue|)] + blocks + tail;
  }

  /** The batch is its header followed by the loop from the first file. */
  lemma QueueIsLoop(convert: Converter, queue: seq<InputFile>, disk: set<string>)
    requires Accepts(convert, queue)
    ensures var r := RunQueue(convert, queue, disk);
      var d := Drive(convert, queue, 0, 0, disk);
      && r.entries == [Header(|queue|)] + d.entries
      && r.items == d.items && r.disk == d.disk
      && r.result.Ok? == d.result.Ok?
  {
  }

  /** Rendering one more entry appends its lines. */
  lemma FlattenSnoc(init: seq<Entry>, e: Entry)
    ensures Flatten(init + [e]) == Flatten(init) + Render(e)
  {
    FlattenAppend(init, [e]);
    assert Flatten([e]) == Render(e) + Flatten([]);
  }

  /** The batch log's first line announces the number of files. */
  lemma QueueLogStart(convert: Converter, queue: seq<InputFile>, disk: set<string>)
    requires Accepts(convert, queue)
    ensures var lines := Flatten(RunQueue(convert, queue, disk).entries);
      |lines| > 0 && lines[0] == "Starting batch processing of " + Decimal(|queue|) + " files..."
  {
    var es := RunQueue(convert, queue, disk).entries;
    assert Flatten(es) == Render(es[0]) + Flatten(es[1..]);
  }

  /** The batch log's last line is the all-done line on success and the
      failing file's failure line otherwise. */
  lemma QueueLogEnd(convert: Converter, queue: seq<InputFile>, disk: set<string>)
    requires Accepts(convert, queue)
    ensures var r := RunQueue(convert, queue, disk);
      var lines := Flatten(r.entries);
      && |lines| > 0
      && lines[|lines| - 1] ==
           (if r.result.Ok? then "🎉 All " + Decimal(|queue|) + " files processed successfully!"
            else "File processing failed: " + r.items[|r.items| - 1].result.reason)
  {
    var r := RunQueue(convert, queue, disk);
    if r.result.Ok? {
      FlattenLastLine(r.entries, AllDone(|queue|));
    } else {
      FlattenLastLine(r.entries, ItemFailed(r.items[|r.items| - 1].result.reason));
    }
  }

  /** A log whose last entry renders to one line ends with that line. */
  lemma FlattenLastLine(es: seq<Entry>, e: Entry)
    requires |es| > 0 && es[|es| - 1] == e && |Render(e)| == 1
    ensures |Flatten(es)| > 0 && Flatten(es)[|Flatten(es)| - 1] == Render(e)[0]
  {
    assert es == es[..|es| - 1] + [e];
    FlattenSnoc(es[..|es| - 1], e);
  }

  /** `process_video_queue_with_logs`: the batch with the item conversion
      of `process_video_with_logs`. */
  function RunBatch(job: Job, queue: seq<InputFile>, oracle: Oracle, disk: set<string>): (r: BatchRun)
    requires Named(queue)
    ensures |r.items| <= |queue|
    ensures forall j :: 0 <= j < |r.items| ==>
      r.items[j] == ProcessItem(job, queue[j], oracle, RunsBefore(r.items, j), DiskBefore(disk, r.items, j))
    ensures r.disk == DiskBefore(disk, r.items, |r.items|)
  {
    QueueRunsInOrder(ItemStep(job, oracle), queue, disk);
    RunQueue(ItemStep(job, oracle), queue, disk)
  }

  /** The batch's per-file conversion is `process_video_with_logs`. */
  lemma StepIsItem(job: Job, oracle: Oracle, f: InputFile, b: nat, d: set<string>)
    requires f.fileName.Some?
    ensures ItemStep(job, oracle)(f, b, d) == ProcessItem(job, f, oracle, b, d)
  {
  }

  /** The batch converts the files in queue order: the j-th item is the
      conversion of the j-th queued file, started after all earlier tool
      runs and on the disk the previous file left; the batch's disk
      afterwards is the last item's. */
  lemma QueueRunsInOrder(convert: Converter, queue: seq<InputFile>, disk: set<string>)
    requires Accepts(convert, queue)
    ensures var r := RunQueue(convert, queue, disk);
      && (forall j :: 0 <= j < |r.items| ==>
            r.items[j] == convert(queue[j], RunsBefore(r.items, j), DiskBefore(disk, r.items, j)))
      && r.disk == DiskBefore(disk, r.items, |r.items|)
  {
    QueueDisk(convert, queue, disk);
    forall j | 0 <= j < |RunQueue(convert, queue, disk).items|
      ensures var items := RunQueue(convert, queue, disk).items;
        items[j] == convert(queue[j], RunsBefore(items, j), DiskBefore(disk, items, j))
    {
      QueueItem(convert, queue, disk, j);
    }
  }

  /** The j-th item of the batch is the j-th item of the loop. */
  lemma QueueItem(convert: Converter, queue: seq<InputFile>, disk: set<string>, j: nat)
    requires Accepts(convert, queue)
    requires j < |RunQueue(convert, queue, disk).items|
    ensures var items := RunQueue(convert, queue, disk).items;
      items[j] == convert(queue[j], RunsBefore(items, j), DiskBefore(disk, items, j))
  {
    QueueIsLoop(convert, queue, disk);
    LoopItem(convert, queue, disk, j);
  }

  lemma LoopItem(convert: Converter, queue: seq<InputFile>, disk: set<string>, j: nat)
    requires Accepts(convert, queue)
    requires j < |Drive(convert, queue, 0, 0, disk).items|
    ensures var items := Drive(convert, queue, 0, 0, disk).items;
      items[j] == convert(queue[j], RunsBefore(items, j), DiskBefore(disk, items, j))
  {
    DriveItem(convert, queue, 0, 0, disk, j);
  }

  /** The batch ends on the disk the last file left. */
  lemma QueueDisk(convert: Converter, queue: seq<InputFile>, disk: set<string>)
    requires Accepts(convert, queue)
    ensures var r := RunQueue(convert, queue, disk);
      r.disk == DiskBefore(disk, r.items, |r.items|)
  {
    DriveDisk(convert, queue, 0, 0, disk);
    QueueIsLoop(convert, queue, disk);
  }

  /** One turn of the loop on a file that converts: its block is logged
      and the loop carries on from the next file. */
  lemma DriveStep(convert: Converter, queue: seq<InputFile>, i: nat, base: nat, disk: set<string>, item: ItemRun)
    requires i < |queue| && Accepts(convert, queue)
    requires item == convert(queue[i], base, disk) && item.result.Ok?
    ensures var r := Drive(convert, queue, i, base, disk);
      var next := Drive(convert, queue, i + 1, base + |item.trace.calls|, item.trace.disk);
      && r.result == next.result
      && r.items == [item] + next.items
      && r.entries == Block(|queue|, i, queue[i], item) + next.entries
  {
  }

  /** The loop on a file that fails: its block is the last thing logged. */
  lemma DriveStop(convert: Converter, queue: seq<InputFile>, i: nat, base: nat, disk: set<string>, item: ItemRun)
    requires i < |queue| && Accepts(convert, queue)
    requires item == convert(queue[i], base, disk) && item.result.Err?
    ensures var r := Drive(convert, queue, i, base, disk);
      && r.result == item.result
      && r.items == [item]
      && r.entries == Block(|queue|, i, queue[i], item)
  {
  }

  /** What the loop below keeps: the log so far followed by the rest of
      the loop is the whole batch log, and the rest of the loop ends as
      the whole does. */
  ghost predicate Between(convert: Converter, queue: seq<InputFile>, whole: BatchRun, entries: seq<Entry>,
                          i: nat, base: nat, disk: set<string>)
    requires i <= |queue| && Accepts(convert, queue)
  {
    var rest := Drive(convert, queue, i, base, disk);
    && whole.result == rest.result
    && |whole.items| == i + |rest.items|
    && [Header(|queue|)] + whole.entries == entries + rest.entries
  }

  /** A file that converts keeps `Between` one file on. */
  lemma BetweenStep(convert: Converter, queue: seq<InputFile>, whole: BatchRun, entries: seq<Entry>,
                    i: nat, base: nat, disk: set<string>, item: ItemRun)
    requires i < |queue| && Accepts(convert, queue)
    requires item == convert(queue[i], base, disk) && item.result.Ok?
    requires Between(convert, queue, whole, entries, i, base, disk)
    ensures Between(convert, queue, whole, entries + Block(|queue|, i, queue[i], item),
                    i + 1, base + |item.trace.calls|, item.trace.disk)
  {
    DriveStep(convert, queue, i, base, disk, item);
    var next := Drive(convert, queue, i + 1, base + |item.trace.calls|, item.trace.disk);
    assert entries + (Block(|queue|, i, queue[i], item) + next.entries)
      == entries + Block(|queue|, i, queue[i], item) + next.entries;
  }

  /** A file that fails ends the batch log and the batch with its result. */
  lemma BetweenStop(convert: Converter, queue: seq<InputFile>, whole: BatchRun, entries: seq<Entry>,
                    i: nat, base: nat, disk: set<string>, item: ItemRun)
    requires i < |queue| && Accepts(convert, queue)
    requires item == convert(queue[i], base, disk) && item.result.Err?
    requires Between(convert, queue, whole, entries, i, base, disk)
    ensures [Header(|queue|)] + whole.entries == entries + Block(|queue|, i, queue[i], item)
    ensures whole.result == item.result && |whole.items| == i + 1
  {
    DriveStop(convert, queue, i, base, disk, item);
  }

  /** Past the last file the batch log ends with the final entry. */
  lemma BetweenDone(convert: Converter, queue: seq<InputFile>, whole: BatchRun, entries: seq<Entry>,
                    base: nat, disk: set<string>)
    requires Accepts(convert, queue)
    requires Between(convert, queue, whole, entries, |queue|, base, disk)
    ensures [Header(|queue|)] + whole.entries == entries + [AllDone(|queue|)]
    ensures whole.result == Ok
  {
  }

  /** The loop of `process_video_queue_with_logs`: convert the files in
      turn, append each one's entries to the log, and return at the first
      failure naming the file's position. It computes the header and the
      loop `Drive` describes, with the failure message of the batch. */
  method QueueLoop(convert: Converter, queue: seq<InputFile>, disk: set<string>)
    returns (result: Status, entries: seq<Entry>)
    requires Accepts(convert, queue)
    ensures var d := Drive(convert, queue, 0, 0, disk);
      && entries == [Header(|queue|)] + d.entries
      && result == (if d.result.Ok? then Ok else Err(BatchFailure(|d.items| - 1, d.result.reason)))
  {
    var n := |queue|;
    ghost var whole := Drive(convert, queue, 0, 0, disk);
    entries := [Header(n)];
    var base: nat, current := 0, disk;
    var i := 0;
    while i < n
      invariant i <= n
      invariant Between(convert, queue, whole, entries, i, base, current)
      decreases n - i
    {
      var item := convert(queue[i], base, current);
      if item.result.Err? {
        BetweenStop(convert, queue, whole, entries, i, base, current, item);
        entries := entries + Block(n, i, queue[i], item);
        return Err(BatchFailure(i, item.result.reason)), entries;
      }
      BetweenStep(convert, queue, whole, entries, i, base, current, item);
      entries := entries + Block(n, i, queue[i], item);
      base, current := base + |item.trace.calls|, item.trace.disk;
      i := i + 1;
    }
    BetweenDone(convert, queue, whole, entries, base, current);
    entries := entries + [AllDone(n)];
    result := Ok;
  }

  /** `process_video_queue_with_logs`: the loop, with its log rendered to
      lines. It yields the result and the log of `RunQueue`. */
  method ProcessQueue(convert: Converter, queue: seq<InputFile>, disk: set<string>)
    returns (result: Status, logs: seq<string>)
    requires Accepts(convert, queue)
    ensures result == RunQueue(convert, queue, disk).result
    ensures logs == Flatten(RunQueue(convert, queue, disk).entries)
  {
    var entries;
    result, entries := QueueLoop(convert, queue, disk);
    logs := Flatten(entries);
  }
}

=== FILE: command.dfy ===
/** One external tool run as the converter sees it: the command and its
    arguments, the outcome the operating system reports, and the log
    lines written about it. Spawning the process is not modelled; its
    outcome is given. */
module Commands {
  import opened Text

  /** What running a tool can come back with: the process ran and exited
      (successfully or not, with its standard error), or it could not be
      started at all. */
  datatype ProcessOutcome =
    | Launched(success: bool, stderr: string)
    | LaunchError(message: string)

  predicate Succeeded(o: ProcessOutcome) {
    o.Launched? && o.success
  }

  /** A tool run requested by the pipeline. `creates` is the file the
      tool writes when it succeeds. */
  datatype Invocation = Invocation(command: string, args: seq<string>, creates: string)

  const SuccessLine := "✓ Command completed successfully"

  /** The echo line: a dollar sign, the command, and the arguments, all
      separated by single spaces. */
  function CommandLine(command: string, args: seq<string>): (r: string)
    ensures r == "$ " + JoinWith([command] + args, " ")
  {
    if |args| == 0 then "$ " + command
    else
      assert ([command] + args)[1..] == args;
      "$ " + command + " " + JoinWith(args, " ")
  }

  /** When neither the command nor any argument contains a space, the
      echo line determines the command and every argument. */
  lemma CommandLineDeterminesInvocation(command: string, args: seq<string>)
    requires Excludes(command, ' ')
    requires forall i :: 0 <= i < |args| ==> Excludes(args[i], ' ')
    ensures Split(CommandLine(command, args)[2..], ' ') == [command] + args
  {
    var parts := [command] + args;
    assert forall i :: 0 <= i < |parts| ==> Excludes(parts[i], ' ') by {
      forall i | 0 <= i < |parts| ensures Excludes(parts[i], ' ') {
        if i > 0 { assert parts[i] == args[i - 1]; }
      }
    }
    SplitJoin(parts, ' ');
    assert CommandLine(command, args)[2..] == JoinWith(parts, [' ']);
  }

  /** The log lines `execute_command_with_logging` writes for one run:
      the echo line, then a success marker, the trimmed standard error of
      a failed run when it is not blank, or the launch error. */
  function Transcript(command: string, args: seq<string>, o: ProcessOutcome): (r: seq<string>)
    ensures 1 <= |r| <= 2 && r[0] == CommandLine(command, args)
    ensures Succeeded(o) <==> |r| == 2 && r[1] == SuccessLine
    ensures o.Launched? && !o.success ==>
      (|r| == 2 <==> !AllWhitespace(o.stderr))
      && (|r| == 2 ==> r[1] == "Error: " + Trim(o.stderr) && !IsWhitespace(r[1][|r[1]| - 1]))
    ensures o.LaunchError? ==> |r| == 2 && r[1] == "Error: " + o.message
  {
    var echo := CommandLine(command, args);
    match o
    case Launched(success, stderr) =>
      if !success then
        var trimmed := Trim(stderr);
        ErrorLine(trimmed);
        if |trimmed| > 0 then [echo, "Error: " + trimmed] else [echo]
      else [echo, SuccessLine]
    case LaunchError(message) =>
      ErrorLine(message);
      [echo, "Error: " + message]
  }

  /** An error line starts with 'E', so it is never the success marker,
      and it ends as its message does. */
  lemma ErrorLine(message: string)
    ensures var l := "Error: " + message;
      && l[0] == 'E' && l != SuccessLine
      && (|message| > 0 ==> l[|l| - 1] == message[|message| - 1])
  {
    assert SuccessLine[0] != 'E';
  }

  /** Every line of a transcript is the echo line, the success marker or
      an "Error: " line, so no transcript line can be mistaken for a
      stage message. */
  lemma TranscriptLines(command: string, args: seq<string>, o: ProcessOutcome)
    ensures forall i :: 0 <= i < |Transcript(command, args, o)| ==>
      var l := Transcript(command, args, o)[i];
      |l| > 0 && (l[0] == '$' || l[0] == 'E' || l == SuccessLine)
  {
  }
}

=== FILE: frame_rate.dfy ===
/** The six output frame rates the user can pick, with the label shown
    in the picker and the ratio handed to the muxer. */
module FrameRates {
  import opened Results

  datatype FrameRate = Film23976 | Film24 | Tv29970 | Tv25 | Hfr60 | Hfr59940

  /** `FrameRate::to_string`: the picker label. */
  function Label(f: FrameRate): string
  {
    match f
    case Film23976 => "23.976 (24000/1001)"
    case Film24 => "24.000 (24)"
    case Tv29970 => "29.970 (30000/1001)"
    case Tv25 => "25.000 (25)"
    case Hfr60 => "60.000 (60)"
    case Hfr59940 => "59.940 (60000/1001)"
  }

  /** `FrameRate::to_value`: the ratio passed verbatim after
      `--input-video-frame-rate`. */
  function Ratio(f: FrameRate): string
  {
    match f
    case Film23976 => "24000/1001"
    case Film24 => "24"
    case Tv29970 => "30000/1001"
    case Tv25 => "25"
    case Hfr60 => "60"
    case Hfr59940 => "60000/1001"
  }

  /** The rate a ratio string denotes, if it is one of the six. */
  function FromRatio(s: string): (r: Option<FrameRate>)
    ensures r.Some? ==> Ratio(r.value) == s
  {
    if s == "24000/1001" then Some(Film23976)
    else if s == "24" then Some(Film24)
    else if s == "30000/1001" then Some(Tv29970)
    else if s == "25" then Some(Tv25)
    else if s == "60" then Some(Hfr60)
    else if s == "60000/1001" then Some(Hfr59940)
    else None
  }

  /** Every rate's ratio reads back as that rate: the ratio mapping is
      total and no two rates share a ratio. */
  lemma RatioRoundTrip(f: FrameRate)
    ensures FromRatio(Ratio(f)) == Some(f)
  {
    match f
    case Film23976 =>
    case Film24 =>
      assert Ratio(f) != "24000/1001";
    case Tv29970 =>
      assert Ratio(f)[0] != "24000/1001"[0];
    case Tv25 =>
      assert Ratio(f)[1] != "24"[1];
    case Hfr60 =>
      assert Ratio(f)[0] != "24"[0] && Ratio(f)[0] != "30000/1001"[0];
    case Hfr59940 =>
      assert Ratio(f)[0] != "24000/1001"[0] && Ratio(f)[0] != "30000/1001"[0];
  }

  lemma RatioInjective(f: FrameRate, g: FrameRate)
    ensures Ratio(f) == Ratio(g) ==> f == g
  {
    RatioRoundTrip(f);
    RatioRoundTrip(g);
  }

  /** The picker label is the rate in decimal, then the ratio in
      parentheses, so the label the user picks names the ratio the muxer
      receives. */
  lemma LabelShowsRatio(f: FrameRate)
    ensures |Label(f)| == |Ratio(f)| + 9
    ensures Label(f)[6..] == " (" + Ratio(f) + ")"
  {
    LabelParts(f);
    Parenthesised(Label(f), Rate(f), Ratio(f));
  }

  /** The decimal rate at the head of each label. */
  function Rate(f: FrameRate): (r: string)
    ensures |r| == 6
  {
    match f
    case Film23976 => "23.976"
    case Film24 => "24.000"
    case Tv29970 => "29.970"
    case Tv25 => "25.000"
    case Hfr60 => "60.000"
    case Hfr59940 => "59.940"
  }

  lemma LabelParts(f: FrameRate)
    ensures Label(f) == Rate(f) + " (" + Ratio(f) + ")"
  {
    if f.Film23976? || f.Film24? {
      FilmLabels(f);
    } else if f.Tv29970? || f.Tv25? {
      TvLabels(f);
    } else {
      HfrLabels(f);
    }
  }

  lemma FilmLabels(f: FrameRate)
    requires f.Film23976? || f.Film24?
    ensures Label(f) == Rate(f) + " (" + Ratio(f) + ")"
  {
  }

  lemma TvLabels(f: FrameRate)
    requires f.Tv29970? || f.Tv25?
    ensures Label(f) == Rate(f) + " (" + Ratio(f) + ")"
  {
  }

  lemma HfrLabels(f: FrameRate)
    requires f.Hfr60? || f.Hfr59940?
    ensures Label(f) == Rate(f) + " (" + Ratio(f) + ")"
  {
  }

  lemma Parenthesised(shown: string, rate: string, ratio: string)
    requires |rate| == 6 && shown == rate + " (" + ratio + ")"
    ensures |shown| == |ratio| + 9 && shown[6..] == " (" + ratio + ")"
  {
    assert shown[6..] == (rate + " (" + ratio + ")")[6..];
  }

  /** Distinct rates have distinct labels. */
  lemma LabelInjective(f: FrameRate, g: FrameRate)
    ensures Label(f) == Label(g) ==> f == g
  {
    LabelShowsRatio(f);
    LabelShowsRatio(g);
    if Label(f) == Label(g) {
      var l := Label(f);
      assert Ratio(f) == l[8..|l| - 1] == Ratio(g);
      RatioInjective(f, g);
    }
  }
}

=== FILE: item_logs.dfy ===
/** The log of one item (`process_video_with_logs`), stated stage by
    stage: every stage writes its heading and then the transcript of its
    tool run for the outcome that run reported, in execution order. */
module ItemLogs {
  import opened Results
  import opened Commands
  import opened Pipeline
  import opened PipelineProperties

  /** A stage's heading followed by the transcript of its tool run. */
  function StageLog(heading: string, call: Invocation, o: ProcessOutcome): seq<string> {
    [heading] + Transcript(call.command, call.args, o)
  }

  /** The optional subtitle extraction: nothing when subtitles were not
      requested, otherwise its stage log and, when it failed, the note
      that the item continues. */
  function SubtitleLog(job: Job, input: string, a: Artifacts, o: ProcessOutcome): seq<string> {
    if !job.includeSubtitles then []
    else StageLog("Extracting subtitles...", ExtractSubtitles(input, a), o)
         + (if Succeeded(o) then [] else [SubtitleSkippedLine])
  }

  /** The log up to and including the mux, when video and audio were
      extracted; `oracle(base + 2)` is the subtitle extraction's outcome
      when it runs. */
  function MuxedLog(job: Job, input: string, a: Artifacts, oracle: Oracle, base: nat): seq<string> {
    StageLog("Extracting video stream...", ExtractVideo(input, a), oracle(base))
    + StageLog("Extracting audio stream...", ExtractAudio(input, a), oracle(base + 1))
    + SubtitleLog(job, input, a, oracle(base + 2))
    + StageLog("Remuxing to MP4...", Mux(a, job.frameRate), oracle(base + MuxSlot(job)))
  }

  /** The subtitle conversion and merge, when subtitles were extracted:
      the conversion's stage log, then MP4Box's transcript when the
      conversion succeeded. */
  function MergeLog(extracted: bool, a: Artifacts, convert: ProcessOutcome, merge: ProcessOutcome): seq<string> {
    if !extracted then []
    else StageLog("Processing subtitles...", ConvertSubtitles(a.subtitles, a), convert)
         + (if Succeeded(convert) then Transcript(MergeSubtitles(a).command, MergeSubtitles(a).args, merge) else [])
  }

  /** A run that succeeded is echoed and then marked as completed. */
  lemma SucceededTranscript(call: Invocation, o: ProcessOutcome)
    requires Succeeded(o)
    ensures Transcript(call.command, call.args, o) == [CommandLine(call.command, call.args), SuccessLine]
  {
  }

  /** A tool run appends its transcript for the outcome at the next
      slot, and records one more call. */
  lemma ExecuteLog(t: Trace, call: Invocation, oracle: Oracle, base: nat)
    ensures var r := Execute(t, call, oracle, base);
      && r.outcome == oracle(base + |t.calls|)
      && r.trace.logs == t.logs + Transcript(call.command, call.args, r.outcome)
      && |r.trace.calls| == |t.calls| + 1
  {
    ExecuteFacts(t, call, oracle, base);
  }

  /** A stage's heading followed by its tool run appends the stage log
      for the outcome at the next slot, and records one more call. */
  lemma StageRunLog(t: Trace, heading: string, call: Invocation, oracle: Oracle, base: nat)
    ensures var r := Execute(Note(t, heading), call, oracle, base);
      && r.trace.logs == t.logs + StageLog(heading, call, oracle(base + |t.calls|))
      && |r.trace.calls| == |t.calls| + 1
  {
    var T := Transcript(call.command, call.args, oracle(base + |t.calls|));
    assert (t.logs + [heading]) + T == t.logs + ([heading] + T);
  }

  /** The video stage's log is its heading and the extractor's
      transcript. */
  lemma VideoRunLog(input: string, a: Artifacts, oracle: Oracle, base: nat, disk: set<string>)
    ensures VideoRun(input, a, oracle, base, disk).trace.logs
      == StageLog("Extracting video stream...", ExtractVideo(input, a), oracle(base))
    ensures |VideoRun(input, a, oracle, base, disk).trace.calls| == 1
  {
    ExecuteFacts(Trace(["Extracting video stream..."], [], disk), ExtractVideo(input, a), oracle, base);
  }

  /** After a good video extraction, the audio stage appends its heading
      and the transcript of the second run. */
  lemma AudioRunLog(input: string, a: Artifacts, oracle: Oracle, base: nat, disk: set<string>)
    ensures AudioRun(input, a, oracle, base, disk).trace.logs
      == StageLog("Extracting video stream...", ExtractVideo(input, a), oracle(base))
         + StageLog("Extracting audio stream...", ExtractAudio(input, a), oracle(base + 1))
    ensures |AudioRun(input, a, oracle, base, disk).trace.calls| == 2
  {
    VideoRunLog(input, a, oracle, base, disk);
    StageRunLog(VideoRun(input, a, oracle, base, disk).trace, "Extracting audio stream...", ExtractAudio(input, a), oracle, base);
  }

  /** The subtitle stage appends the subtitle extraction's log, if any. */
  lemma SubtitleRunLog(job: Job, input: string, a: Artifacts, oracle: Oracle, base: nat, disk: set<string>)
    ensures SubtitleRun(job, input, a, oracle, base, disk).trace.logs
      == AudioRun(input, a, oracle, base, disk).trace.logs + SubtitleLog(job, input, a, oracle(base + 2))
    ensures |SubtitleRun(job, input, a, oracle, base, disk).trace.calls| == MuxSlot(job)
  {
    AudioRunLog(input, a, oracle, base, disk);
    if job.includeSubtitles {
      var au := AudioRun(input, a, oracle, base, disk);
      StageRunLog(au.trace, "Extracting subtitles...", ExtractSubtitles(input, a), oracle, base);
      var e := Execute(Note(au.trace, "Extracting subtitles..."), ExtractSubtitles(input, a), oracle, base);
      var stage := StageLog("Extracting subtitles...", ExtractSubtitles(input, a), oracle(base + 2));
      if !Succeeded(e.outcome) {
        assert (au.trace.logs + stage) + [SubtitleSkippedLine] == au.trace.logs + (stage + [SubtitleSkippedLine]);
      }
    }
  }

  /** Once the extractions have run, the log up to the mux is the two
      extraction stages, the optional subtitle extraction and the mux
      stage, each with the transcript of its own outcome. */
  lemma MuxRunLog(job: Job, input: string, a: Artifacts, oracle: Oracle, base: nat, disk: set<string>)
    ensures MuxRun(job, input, a, oracle, base, disk).trace.logs == MuxedLog(job, input, a, oracle, base)
    ensures |MuxRun(job, input, a, oracle, base, disk).trace.calls| == MuxSlot(job) + 1
  {
    SubtitleRunLog(job, input, a, oracle, base, disk);
    AudioRunLog(input, a, oracle, base, disk);
    StageRunLog(SubtitleRun(job, input, a, oracle, base, disk).trace, "Remuxing to MP4...", Mux(a, job.frameRate), oracle, base);
  }

  /** A failed video extraction leaves its heading and the extractor's
      transcript as the whole log; the transcript ends with the "Error: "
      line unless the tool exited with blank standard error. */
  lemma VideoFailureLog(job: Job, input: string, a: Artifacts, oracle: Oracle, base: nat, disk: set<string>)
    requires !Succeeded(oracle(base))
    ensures Convert(job, input, a, oracle, base, disk).trace.logs
      == StageLog("Extracting video stream...", ExtractVideo(input, a), oracle(base))
  {
    VideoFacts(input, a, oracle, base, disk);
    VideoRunLog(input, a, oracle, base, disk);
  }

  /** A failed audio extraction ends the log with the audio heading and
      the transcript of the failed run, after the video stage's log. */
  lemma AudioFailureLog(job: Job, input: string, a: Artifacts, oracle: Oracle, base: nat, disk: set<string>)
    requires Succeeded(oracle(base)) && !Succeeded(oracle(base + 1))
    ensures Convert(job, input, a, oracle, base, disk).trace.logs
      == StageLog("Extracting video stream...", ExtractVideo(input, a), oracle(base))
         + StageLog("Extracting audio stream...", ExtractAudio(input, a), oracle(base + 1))
  {
    VideoFacts(input, a, oracle, base, disk);
    AudioFacts(input, a, oracle, base, disk);
    AudioRunLog(input, a, oracle, base, disk);
    assert VideoRun(input, a, oracle, base, disk).outcome == oracle(base);
    assert Convert(job, input, a, oracle, base, disk).trace == AudioRun(input, a, oracle, base, disk).trace;
  }

  /** A failed mux ends the log with the mux heading and the muxer's
      transcript, after the extraction stages. */
  lemma MuxFailureLog(job: Job, input: string, a: Artifacts, oracle: Oracle, base: nat, disk: set<string>)
    requires Succeeded(oracle(base)) && Succeeded(oracle(base + 1))
    requires !Succeeded(oracle(base + MuxSlot(job)))
    ensures Convert(job, input, a, oracle, base, disk).trace.logs == MuxedLog(job, input, a, oracle, base)
  {
    MuxRunLog(job, input, a, oracle, base, disk);
    MuxedTail(job, input, a, oracle, base, disk);
  }

  /** The merge stage writes the conversion's stage log and, after a
      successful conversion, MP4Box's transcript. */
  lemma MergeStageLog(subtitles: Option<string>, a: Artifacts, t: Trace, oracle: Oracle, base: nat)
    requires subtitles.None? || subtitles.value == a.subtitles
    ensures MergeStage(subtitles, a, t, oracle, base).trace.logs
      == t.logs + MergeLog(subtitles.Some?, a, oracle(base + |t.calls|), oracle(base + |t.calls| + 1))
  {
    if subtitles.Some? {
      var c := Execute(Note(t, "Processing subtitles..."), ConvertSubtitles(a.subtitles, a), oracle, base);
      StageRunLog(t, "Processing subtitles...", ConvertSubtitles(a.subtitles, a), oracle, base);
      ExecuteLog(c.trace, MergeSubtitles(a), oracle, base);
    }
  }

  /** After a successful mux the log continues with the subtitle
      conversion and merge; a successful item then ends with the
      clean-up and completion lines. */
  lemma MuxedItemLog(job: Job, input: string, a: Artifacts, oracle: Oracle, base: nat, disk: set<string>)
    requires Succeeded(oracle(base)) && Succeeded(oracle(base + 1)) && Succeeded(oracle(base + MuxSlot(job)))
    ensures var r := Convert(job, input, a, oracle, base, disk);
      var extracted := job.includeSubtitles && Succeeded(oracle(base + 2));
      var logs := MuxedLog(job, input, a, oracle, base) + MergeLog(extracted, a, oracle(base + 4), oracle(base + 5));
      r.trace.logs == logs + (if r.result.Ok? then [CleaningUpLine, CompletedLine] else [])
  {
    var s := SubtitleRun(job, input, a, oracle, base, disk);
    var m := MuxRun(job, input, a, oracle, base, disk);
    MuxRunLog(job, input, a, oracle, base, disk);
    SubtitleFacts(job, input, a, oracle, base, disk);
    MuxedTail(job, input, a, oracle, base, disk);
    MergeStageLog(s.subtitles, a, m.trace, oracle, base);
    CleanUpFacts(MergeStage(s.subtitles, a, m.trace, oracle, base).trace, a, s.subtitles);
  }

  /** Without subtitles and with three successful tools, the whole log
      is the three stage headings, each followed by the echoed command
      and the success marker, then the clean-up and completion lines. */
  lemma ThreeToolsLog(job: Job, input: string, a: Artifacts, oracle: Oracle, base: nat, disk: set<string>)
    requires !job.includeSubtitles
    requires Succeeded(oracle(base)) && Succeeded(oracle(base + 1)) && Succeeded(oracle(base + 2))
    ensures Convert(job, input, a, oracle, base, disk).trace.logs
      == ["Extracting video stream...",
          CommandLine("mkvextract", ExtractVideo(input, a).args), SuccessLine,
          "Extracting audio stream...",
          CommandLine("ffmpeg", ExtractAudio(input, a).args), SuccessLine,
          "Remuxing to MP4...",
          CommandLine("mp4muxer", Mux(a, job.frameRate).args), SuccessLine,
          "Cleaning up temporary files...", "Processing completed!"]
  {
    MuxedItemLog(job, input, a, oracle, base, disk);
    ThreeToolsSucceed(job, input, a, oracle, base, disk);
    SucceededTranscript(ExtractVideo(input, a), oracle(base));
    SucceededTranscript(ExtractAudio(input, a), oracle(base + 1));
    SucceededTranscript(Mux(a, job.frameRate), oracle(base + 2));
  }

  /** A failed merge ends the log with MP4Box's transcript, which holds
      its "Error: " line when its standard error is not blank, after the
      conversion's stage log; no clean-up line follows. */
  lemma MergeFailureLog(job: Job, input: string, a: Artifacts, oracle: Oracle, base: nat, disk: set<string>)
    requires job.includeSubtitles
    requires Succeeded(oracle(base)) && Succeeded(oracle(base + 1)) && Succeeded(oracle(base + 2))
    requires Succeeded(oracle(base + 3)) && Succeeded(oracle(base + 4))
    requires oracle(base + 5).Launched? && !oracle(base + 5).success
    ensures Convert(job, input, a, oracle, base, disk).trace.logs
      == MuxedLog(job, input, a, oracle, base)
         + StageLog("Processing subtitles...", ConvertSubtitles(a.subtitles, a), oracle(base + 4))
         + Transcript("MP4Box", MergeSubtitles(a).args, oracle(base + 5))
  {
    var s := SubtitleRun(job, input, a, oracle, base, disk);
    var m := MuxRun(job, input, a, oracle, base, disk);
    MuxedItemLog(job, input, a, oracle, base, disk);
    MuxRunLog(job, input, a, oracle, base, disk);
    SubtitleFacts(job, input, a, oracle, base, disk);
    MuxedTail(job, input, a, oracle, base, disk);
    MergeStageFacts(s.subtitles, a, m.trace, oracle, base);
  }
}

=== FILE: path_names.dfy ===
/** The few `std::path` operations the converter uses on file names: the
    stem that names every scratch and output file, the extension the
    drop filter inspects, and `Path::join` for building those paths.
    A file name here is one path component, so it holds no separator. */
module PathNames {
  import opened Results

  predicate NoDot(s: string) {
    forall i :: 0 <= i < |s| ==> s[i] != '.'
  }

  /** Position of the last '.' in `s`, if any. */
  function LastDot(s: string): (r: Option<nat>)
    ensures r.Some? ==> r.value < |s| && s[r.value] == '.' && NoDot(s[r.value + 1..])
    ensures r.None? ==> NoDot(s)
    decreases |s|
  {
    if |s| == 0 then None
    else if s[|s| - 1] == '.' then Some(|s| - 1)
    else LastDot(s[..|s| - 1])
  }

  /** `Path::file_stem` applied to a file name: the name up to its last
      dot, or the whole name when it has no dot, when that dot is its
      first character, or when the name is "..". */
  function Stem(name: string): (r: string)
    ensures |r| <= |name| && r == name[..|r|]
    ensures |r| < |name| ==> 0 < |r| && name[|r|] == '.' && NoDot(name[|r| + 1..])
  {
    if name == ".." then name
    else match LastDot(name)
      case None => name
      case Some(k) => if k == 0 then name else name[..k]
  }

  /** `Path::extension` applied to a file name: what follows the last
      dot, under the same exceptions as `Stem`. */
  function Extension(name: string): (r: Option<string>)
    ensures r.Some? ==> (|r.value| < |name| && r.value == name[|name| - |r.value|..]
      && name[|name| - |r.value| - 1] == '.' && NoDot(r.value))
    ensures r.None? ==> name == ".." || NoDot(name) || (name[0] == '.' && NoDot(name[1..]))
  {
    if name == ".." then None
    else match LastDot(name)
      case None => None
      case Some(k) => if k == 0 then None else Some(name[k + 1..])
  }

  /** Stem and extension partition the name: with an extension the name
      is stem, dot, extension, the stem is non-empty and the extension
      has no dot; without one the stem is the whole name. */
  lemma StemExtensionSplit(name: string)
    ensures Extension(name).Some? ==>
      && name == Stem(name) + "." + Extension(name).value
      && |Stem(name)| > 0
      && NoDot(Extension(name).value)
    ensures Extension(name).None? ==> Stem(name) == name
  {
    if name != ".." && LastDot(name).Some? && LastDot(name).value != 0 {
      var k := LastDot(name).value;
      assert name == name[..k] + "." + name[k + 1..];
    }
  }

  /** A name built as stem, dot, extension is taken apart again, e.g.
      "movie.mkv" has stem "movie" and extension "mkv". */
  lemma {:induction false} StemOfDottedName(stem: string, ext: string)
    requires |stem| > 0 && NoDot(ext)
    requires stem + "." + ext != ".."
    ensures Stem(stem + "." + ext) == stem
    ensures Extension(stem + "." + ext) == Some(ext)
  {
    var name := stem + "." + ext;
    LastDotAfter(stem, ext);
    assert name[..|stem|] == stem;
    assert name[|stem| + 1..] == ext;
  }

  lemma {:induction false} LastDotAfter(stem: string, ext: string)
    requires NoDot(ext)
    ensures LastDot(stem + "." + ext) == Some(|stem|)
    decreases |ext|
  {
    var name := stem + "." + ext;
    if |ext| > 0 {
      assert name[..|name| - 1] == stem + "." + ext[..|ext| - 1];
      LastDotAfter(stem, ext[..|ext| - 1]);
    }
  }

  /** `PathBuf::join` with a relative file name on a Unix system: a '/'
      goes between the two unless `dir` is empty or already ends in one.
      The path is `dir`, at most one added '/', then `name`. */
  function JoinPath(dir: string, name: string): (p: string)
    ensures |dir| + |name| <= |p| <= |dir| + |name| + 1
    ensures p[..|dir|] == dir && p[|p| - |name|..] == name
    ensures |p| > |dir| + |name| ==> p[|dir|] == '/'
  {
    if |dir| == 0 || dir[|dir| - 1] == '/' then dir + name else dir + "/" + name
  }

  /** The file name either starts the joined path or follows a '/', and a
      '/' is added exactly when the directory is non-empty and does not
      already end in one. */
  lemma JoinSeparator(dir: string, name: string)
    ensures var p := JoinPath(dir, name);
      |p| == |name| || p[|p| - |name| - 1] == '/'
    ensures |JoinPath(dir, name)| == |dir| + |name| + 1 <==> |dir| > 0 && dir[|dir| - 1] != '/'
  {
  }

  /** Two joined paths whose file names end in different characters are
      different paths. */
  lemma JoinPathsDiffer(d1: string, n1: string, d2: string, n2: string)
    requires |n1| > 0 && |n2| > 0 && n1[|n1| - 1] != n2[|n2| - 1]
    ensures JoinPath(d1, n1) != JoinPath(d2, n2)
  {
    var p1, p2 := JoinPath(d1, n1), JoinPath(d2, n2);
    assert p1[|p1| - 1] == n1[|n1| - 1];
    assert p2[|p2| - 1] == n2[|n2| - 1];
  }
}

=== FILE: pipeline.dfy ===
/** The conversion of one Dolby Vision MKV file into an MP4
    (`process_video_with_logs`): extract the video track, extract the
    first audio stream, optionally extract the first subtitle stream,
    mux video and audio into `<stem>_dvh1.mp4`, optionally convert and
    merge the subtitles into `<stem>_dvh1_with_subs.mp4`, then delete the
    scratch files.

    The tools are not run: the k-th tool run of a batch reports
    `oracle(k)`, and an item whose first run is the batch's `base`-th one
    reads `oracle(base)`, `oracle(base + 1)`, ... in invocation order.
    The disk is the set of existing paths; a tool that succeeds adds the
    file it writes, a tool that fails leaves the disk as it was. */
module Pipeline {
  import opened Results
  import opened PathNames
  import opened FrameRates
  import opened Commands

  type Oracle = nat -> ProcessOutcome

  /** A queued input: its full path and its file name (`Path::file_name`,
      absent for paths such as "/" or ending in ".."). */
  datatype InputFile = InputFile(path: string, fileName: Option<string>)

  /** The settings shared by every file of a batch, and the system's
      temporary directory. */
  datatype Job = Job(outputFolder: string, frameRate: FrameRate, includeSubtitles: bool, tempDir: string)

  /** Every path one item reads or writes, all derived from the stem. */
  datatype Artifacts = Artifacts(
    video: string,
    audio: string,
    subtitles: string,
    convertedSubtitles: string,
    output: string,
    outputWithSubtitles: string)

  function ArtifactsFor(job: Job, stem: string): Artifacts
  {
    Artifacts(
      JoinPath(job.tempDir, stem + "_DV.hevc"),
      JoinPath(job.tempDir, stem + "_audio.ec3"),
      JoinPath(job.tempDir, stem + "_subs.srt"),
      JoinPath(job.tempDir, stem + "_subs.mp4"),
      JoinPath(job.outputFolder, stem + "_dvh1.mp4"),
      JoinPath(job.outputFolder, stem + "_dvh1_with_subs.mp4"))
  }

  function ArtifactsOf(job: Job, input: InputFile): Artifacts
    requires input.fileName.Some?
  {
    ArtifactsFor(job, Stem(input.fileName.value))
  }

  // The six tool runs, with the argument vectors `process_video_with_logs` builds.

  function ExtractVideo(input: string, a: Artifacts): Invocation {
    Invocation("mkvextract", ["tracks", input, "0:" + a.video], a.video)
  }

  function ExtractAudio(input: string, a: Artifacts): Invocation {
    Invocation("ffmpeg", ["-i", input, "-map", "0:a:0", "-c", "copy", a.audio, "-y"], a.audio)
  }

  function ExtractSubtitles(input: string, a: Artifacts): Invocation {
    Invocation("ffmpeg", ["-i", input, "-map", "0:s:0", "-c", "copy", a.subtitles, "-y"], a.subtitles)
  }

  function Mux(a: Artifacts, rate: FrameRate): Invocation {
    Invocation("mp4muxer",
      ["-o", a.output, "-i", a.video, "--input-video-frame-rate", Ratio(rate),
       "-i", a.audio, "--dv-profile", "5", "--dvh1flag", "0"],
      a.output)
  }

  function ConvertSubtitles(subtitles: string, a: Artifacts): Invocation {
    Invocation("ffmpeg", ["-i", subtitles, "-c:s", "mov_text", a.convertedSubtitles, "-y"], a.convertedSubtitles)
  }

  function MergeSubtitles(a: Artifacts): Invocation {
    Invocation("MP4Box", ["-add", a.output, "-add", a.convertedSubtitles, "-new", a.outputWithSubtitles],
      a.outputWithSubtitles)
  }

  /** What one item has done so far: its log, the tools it ran in order,
      and the disk. */
  datatype Trace = Trace(logs: seq<string>, calls: seq<Invocation>, disk: set<string>)

  datatype Ran = Ran(outcome: ProcessOutcome, trace: Trace)

  function Note(t: Trace, line: string): Trace {
    t.(logs := t.logs + [line])
  }

  /** Runs one tool: it reports the next outcome of the oracle, its
      transcript joins the log, and on success its file appears. */
  function Execute(t: Trace, call: Invocation, oracle: Oracle, base: nat): Ran
  {
    var o := oracle(base + |t.calls|);
    Ran(o, Trace(
      t.logs + Transcript(call.command, call.args, o),
      t.calls + [call],
      if Succeeded(o) then t.disk + {call.creates} else t.disk))
  }

  /** A tool run reports the next outcome of the oracle, is recorded as
      the next call, extends the log by exactly its transcript for that
      outcome, which starts with the echoed command line, and changes the disk only in the file it
      creates, which then exists iff the run succeeded or it existed. */
  lemma ExecuteFacts(t: Trace, call: Invocation, oracle: Oracle, base: nat)
    ensures var r := Execute(t, call, oracle, base);
      && r.outcome == oracle(base + |t.calls|)
      && r.trace.calls == t.calls + [call]
      && r.trace.logs == t.logs + Transcript(call.command, call.args, r.outcome)
      && |t.logs| < |r.trace.logs| <= |t.logs| + 2 && r.trace.logs[..|t.logs|] == t.logs
      && r.trace.logs[|t.logs|] == CommandLine(call.command, call.args)
      && (call.creates in r.trace.disk <==> Succeeded(r.outcome) || call.creates in t.disk)
      && r.trace.disk - {call.creates} == t.disk - {call.creates}
  {
    var r := Execute(t, call, oracle, base);
    assert r.trace.logs[..|t.logs|] == t.logs;
  }

  /** The failure reason of a mandatory stage: the stage's prefix and the
      raw standard error when the tool exited non-zero, the launch error
      unchanged when it could not be started. */
  function HardFailure(prefix: string, o: ProcessOutcome): string
    requires !Succeeded(o)
  {
    match o
    case Launched(_, stderr) => prefix + stderr
    case LaunchError(message) => message
  }

  datatype ItemRun = ItemRun(result: Status, trace: Trace)

  /** Where the optional subtitle extraction leaves the item: the
      subtitle file when extraction succeeded. */
  datatype Extracted = Extracted(subtitles: Option<string>, trace: Trace)

  function SubtitleStage(job: Job, input: string, a: Artifacts, t: Trace, oracle: Oracle, base: nat): Extracted
  {
    if !job.includeSubtitles then Extracted(None, t)
    else
      var s := Execute(Note(t, "Extracting subtitles..."), ExtractSubtitles(input, a), oracle, base);
      if Succeeded(s.outcome) then Extracted(Some(a.subtitles), s.trace)
      else Extracted(None, Note(s.trace, "Subtitle extraction failed, continuing..."))
  }

  /** The subtitle extraction runs exactly when subtitles were requested;
      the stage yields the `_subs.srt` file iff that run succeeded, and
      then the file exists. The stage never deletes and only appends to
      the log. */
  lemma SubtitleStageFacts(job: Job, input: string, a: Artifacts, t: Trace, oracle: Oracle, base: nat)
    ensures var r := SubtitleStage(job, input, a, t, oracle, base);
      && (!job.includeSubtitles ==> r == Extracted(None, t))
      && (job.includeSubtitles ==> r.trace.calls == t.calls + [ExtractSubtitles(input, a)])
      && (r.subtitles.Some? <==> job.includeSubtitles && Succeeded(oracle(base + |t.calls|)))
      && (r.subtitles.Some? ==> r.subtitles.value == a.subtitles && a.subtitles in r.trace.disk)
      && t.disk <= r.trace.disk
      && |t.logs| <= |r.trace.logs| && r.trace.logs[..|t.logs|] == t.logs
  {
    if job.includeSubtitles {
      var t1 := Note(t, "Extracting subtitles...");
      ExecuteFacts(t1, ExtractSubtitles(input, a), oracle, base);
      var r := SubtitleStage(job, input, a, t, oracle, base);
      assert r.trace.logs[..|t.logs|] == t.logs;
    }
  }

  /** The conversion and merge of extracted subtitles. Only an MP4Box run
      that exits non-zero stops the item; a failed conversion skips the
      merge and an MP4Box launch error is ignored. */
  function MergeStage(subtitles: Option<string>, a: Artifacts, t: Trace, oracle: Oracle, base: nat): ItemRun
  {
    if subtitles.None? then ItemRun(Ok, t)
    else
      var c := Execute(Note(t, "Processing subtitles..."), ConvertSubtitles(subtitles.value, a), oracle, base);
      if !Succeeded(c.outcome) then ItemRun(Ok, c.trace)
      else
        var m := Execute(c.trace, MergeSubtitles(a), oracle, base);
        if m.outcome.Launched? && !m.outcome.success then
          ItemRun(Err("Subtitle merging failed: " + m.outcome.stderr), m.trace)
        else ItemRun(Ok, m.trace)
  }

  /** The subtitle stage runs at most the conversion and MP4Box after the
      earlier calls, never deletes, does nothing without a subtitle file,
      and fails exactly when the conversion succeeded and MP4Box then
      started and exited non-zero. */
  lemma MergeStageFacts(subtitles: Option<string>, a: Artifacts, t: Trace, oracle: Oracle, base: nat)
    ensures var r := MergeStage(subtitles, a, t, oracle, base);
      && (subtitles.None? ==> r == ItemRun(Ok, t))
      && |t.calls| <= |r.trace.calls| <= |t.calls| + 2 && r.trace.calls[..|t.calls|] == t.calls
      && t.disk <= r.trace.disk
      && (r.result.Err? <==>
            && subtitles.Some?
            && Succeeded(oracle(base + |t.calls|))
            && oracle(base + |t.calls| + 1).Launched? && !oracle(base + |t.calls| + 1).success)
  {
    if subtitles.Some? {
      var t1 := Note(t, "Processing subtitles...");
      ExecuteFacts(t1, ConvertSubtitles(subtitles.value, a), oracle, base);
      var c := Execute(t1, ConvertSubtitles(subtitles.value, a), oracle, base);
      if Succeeded(c.outcome) {
        ExecuteFacts(c.trace, MergeSubtitles(a), oracle, base);
        var m := Execute(c.trace, MergeSubtitles(a), oracle, base);
        assert m.trace.calls[..|t.calls|] == t.calls;
      }
    }
  }

  /** Deletes the video, audio and extracted subtitle files (deleting a
      missing file is ignored) and logs the end of the item. The
      converted subtitle file is not deleted. */
  function CleanUp(t: Trace, a: Artifacts, subtitles: Option<string>): Trace
  {
    var removed := {a.video, a.audio} + (if subtitles.Some? then {subtitles.value} else {});
    Note(Note(t, "Cleaning up temporary files...").(disk := t.disk - removed), "Processing completed!")
  }

  /** The clean-up runs no tool, appends its two lines, and deletes
      exactly the scratch video, the scratch audio and the extracted
      subtitles, keeping every other file. */
  lemma CleanUpFacts(t: Trace, a: Artifacts, subtitles: Option<string>)
    ensures var r := CleanUp(t, a, subtitles);
      && r.calls == t.calls
      && r.logs == t.logs + ["Cleaning up temporary files...", "Processing completed!"]
      && r.disk <= t.disk
      && a.video !in r.disk && a.audio !in r.disk && (subtitles.Some? ==> subtitles.value !in r.disk)
      && forall p :: (p in t.disk && p != a.video && p != a.audio && (subtitles.None? || p != subtitles.value)
           ==> p in r.disk)
  {
  }

  /** `process_video_with_logs` once the paths are known. A stage that
      stops the item returns at once, before the clean-up. */
  function Convert(job: Job, input: string, a: Artifacts, oracle: Oracle, base: nat, disk: set<string>): ItemRun
  {
    var v := Execute(Trace(["Extracting video stream..."], [], disk), ExtractVideo(input, a), oracle, base);
    if !Succeeded(v.outcome) then ItemRun(Err(HardFailure("Video extraction failed: ", v.outcome)), v.trace)
    else
      var au := Execute(Note(v.trace, "Extracting audio stream..."), ExtractAudio(input, a), oracle, base);
      if !Succeeded(au.outcome) then ItemRun(Err(HardFailure("Audio extraction failed: ", au.outcome)), au.trace)
      else
        var s := SubtitleStage(job, input, a, au.trace, oracle, base);
        var m := Execute(Note(s.trace, "Remuxing to MP4..."), Mux(a, job.frameRate), oracle, base);
        if !Succeeded(m.outcome) then ItemRun(Err(HardFailure("MP4 muxing failed: ", m.outcome)), m.trace)
        else
          var merged := MergeStage(s.subtitles, a, m.trace, oracle, base);
          if merged.result.Err? then merged
          else ItemRun(Ok, CleanUp(merged.trace, a, s.subtitles))
  }

  /** `process_video_with_logs`: derives the paths from the file stem
      and converts. The file name must exist, as the Rust code unwraps the
      file stem. */
  function ProcessItem(job: Job, input: InputFile, oracle: Oracle, base: nat, disk: set<string>): ItemRun
    requires input.fileName.Some?
  {
    Convert(job, input.path, ArtifactsOf(job, input), oracle, base, disk)
  }
}

=== FILE: pipeline_properties.dfy ===
/** What `process_video_with_logs` guarantees, stage by stage: which
    failures stop the item and with what reason, which tools run in which
    order, which log lines appear, and which files are left on disk.
    The item's k-th tool run reports `oracle(base + k)`. */
module PipelineProperties {
  import opened Results
  import opened PathNames
  import opened Commands
  import opened Pipeline

  const CleaningUpLine := "Cleaning up temporary files..."
  const CompletedLine := "Processing completed!"
  const SubtitleSkippedLine := "Subtitle extraction failed, continuing..."

  /** Position of the muxer among the item's tool runs. */
  function MuxSlot(job: Job): nat {
    if job.includeSubtitles then 3 else 2
  }

  // The item's first stages, named as `Convert` computes them.

  function VideoRun(input: string, a: Artifacts, oracle: Oracle, base: nat, disk: set<string>): Ran {
    Execute(Trace(["Extracting video stream..."], [], disk), ExtractVideo(input, a), oracle, base)
  }

  function AudioRun(input: string, a: Artifacts, oracle: Oracle, base: nat, disk: set<string>): Ran {
    Execute(Note(VideoRun(input, a, oracle, base, disk).trace, "Extracting audio stream..."),
      ExtractAudio(input, a), oracle, base)
  }

  function SubtitleRun(job: Job, input: string, a: Artifacts, oracle: Oracle, base: nat, disk: set<string>): Extracted {
    SubtitleStage(job, input, a, AudioRun(input, a, oracle, base, disk).trace, oracle, base)
  }

  function MuxRun(job: Job, input: string, a: Artifacts, oracle: Oracle, base: nat, disk: set<string>): Ran {
    Execute(Note(SubtitleRun(job, input, a, oracle, base, disk).trace, "Remuxing to MP4..."),
      Mux(a, job.frameRate), oracle, base)
  }

  /** No log line so far announces the clean-up or the completion. */
  predicate Quiet(logs: seq<string>) {
    forall i :: 0 <= i < |logs| ==> logs[i] != CleaningUpLine && logs[i] != CompletedLine
  }

  lemma QuietExecute(t: Trace, call: Invocation, oracle: Oracle, base: nat)
    requires Quiet(t.logs)
    ensures Quiet(Execute(t, call, oracle, base).trace.logs)
  {
    var o := oracle(base + |t.calls|);
    var lines := Transcript(call.command, call.args, o);
    TranscriptLines(call.command, call.args, o);
    var logs := Execute(t, call, oracle, base).trace.logs;
    assert logs == t.logs + lines;
    forall i | 0 <= i < |logs| ensures logs[i] != CleaningUpLine && logs[i] != CompletedLine {
      if i >= |t.logs| {
        TranscriptLineQuiet(lines[i - |t.logs|]);
      }
    }
  }

  /** A transcript line is neither the clean-up nor the completion line. */
  lemma TranscriptLineQuiet(l: string)
    requires |l| > 0 && (l[0] == '$' || l[0] == 'E' || l == SuccessLine)
    ensures l != CleaningUpLine && l != CompletedLine
  {
    assert CleaningUpLine[0] == 'C' && CompletedLine[0] == 'P';
    assert SuccessLine[0] != 'C' && SuccessLine[0] != 'P';
  }

  lemma QuietNote(t: Trace, line: string)
    requires Quiet(t.logs)
    requires |line| != |CleaningUpLine| && |line| != |CompletedLine|
    ensures Quiet(Note(t, line).logs)
  {
  }

  /** The video extraction reads the item's first outcome, is the first
      tool run and writes the scratch video only on success. */
  lemma VideoFacts(input: string, a: Artifacts, oracle: Oracle, base: nat, disk: set<string>)
    ensures var v := VideoRun(input, a, oracle, base, disk);
      && v.outcome == oracle(base)
      && v.trace.calls == [ExtractVideo(input, a)]
      && v.trace.disk == (if Succeeded(v.outcome) then disk + {a.video} else disk)
      && Quiet(v.trace.logs)
  {
    var t0 := Trace(["Extracting video stream..."], [], disk);
    assert Quiet(t0.logs);
    QuietExecute(t0, ExtractVideo(input, a), oracle, base);
  }

  /** After a good video extraction, the audio extraction reads the
      second outcome and is the second tool run. */
  lemma AudioFacts(input: string, a: Artifacts, oracle: Oracle, base: nat, disk: set<string>)
    requires Succeeded(oracle(base))
    ensures var au := AudioRun(input, a, oracle, base, disk);
      && au.outcome == oracle(base + 1)
      && au.trace.calls == [ExtractVideo(input, a), ExtractAudio(input, a)]
      && au.trace.disk == (if Succeeded(au.outcome) then disk + {a.video, a.audio} else disk + {a.video})
      && Quiet(au.trace.logs)
  {
    VideoFacts(input, a, oracle, base, disk);
    var v := VideoRun(input, a, oracle, base, disk);
    var t1 := Note(v.trace, "Extracting audio stream...");
    QuietNote(v.trace, "Extracting audio stream...");
    QuietExecute(t1, ExtractAudio(input, a), oracle, base);
  }

  /** After both extractions, the subtitle stage runs the subtitle
      extraction iff subtitles were requested, keeps the subtitle file
      only when that run succeeded, and logs a note when it did not. */
  lemma SubtitleFacts(job: Job, input: string, a: Artifacts, oracle: Oracle, base: nat, disk: set<string>)
    requires Succeeded(oracle(base)) && Succeeded(oracle(base + 1))
    ensures var s := SubtitleRun(job, input, a, oracle, base, disk);
      var extracted := job.includeSubtitles && Succeeded(oracle(base + 2));
      && s.trace.calls == [ExtractVideo(input, a), ExtractAudio(input, a)]
                          + (if job.includeSubtitles then [ExtractSubtitles(input, a)] else [])
      && s.subtitles == (if extracted then Some(a.subtitles) else None)
      && s.trace.disk == disk + {a.video, a.audio} + (if extracted then {a.subtitles} else {})
      && (job.includeSubtitles && !extracted ==> SubtitleSkippedLine in s.trace.logs)
      && Quiet(s.trace.logs)
  {
    AudioFacts(input, a, oracle, base, disk);
    var au := AudioRun(input, a, oracle, base, disk);
    var s := SubtitleRun(job, input, a, oracle, base, disk);
    if job.includeSubtitles {
      var t2 := Note(au.trace, "Extracting subtitles...");
      QuietNote(au.trace, "Extracting subtitles...");
      QuietExecute(t2, ExtractSubtitles(input, a), oracle, base);
      var e := Execute(t2, ExtractSubtitles(input, a), oracle, base);
      assert e.outcome == oracle(base + 2);
      if !Succeeded(e.outcome) {
        QuietNote(e.trace, SubtitleSkippedLine);
        assert s.trace.logs[|s.trace.logs| - 1] == SubtitleSkippedLine;
      }
    }
  }

  /** After both extractions, the muxer reads the outcome at `MuxSlot`
      and writes the primary output only on success. */
  lemma MuxFacts(job: Job, input: string, a: Artifacts, oracle: Oracle, base: nat, disk: set<string>)
    requires Succeeded(oracle(base)) && Succeeded(oracle(base + 1))
    ensures var s := SubtitleRun(job, input, a, oracle, base, disk);
      var m := MuxRun(job, input, a, oracle, base, disk);
      && |s.trace.calls| == MuxSlot(job)
      && m.outcome == oracle(base + MuxSlot(job))
      && m.trace.calls == s.trace.calls + [Mux(a, job.frameRate)]
      && m.trace.disk == (if Succeeded(m.outcome) then s.trace.disk + {a.output} else s.trace.disk)
      && Quiet(m.trace.logs)
  {
    SubtitleFacts(job, input, a, oracle, base, disk);
    var s := SubtitleRun(job, input, a, oracle, base, disk);
    var t3 := Note(s.trace, "Remuxing to MP4...");
    QuietNote(s.trace, "Remuxing to MP4...");
    QuietExecute(t3, Mux(a, job.frameRate), oracle, base);
  }

  /** All of the above, for the lemmas below. */
  lemma PrefixFacts(job: Job, input: string, a: Artifacts, oracle: Oracle, base: nat, disk: set<string>)
    ensures VideoRun(input, a, oracle, base, disk).outcome == oracle(base)
    ensures VideoRun(input, a, oracle, base, disk).trace.calls == [ExtractVideo(input, a)]
    ensures !Succeeded(oracle(base)) ==> VideoRun(input, a, oracle, base, disk).trace.disk == disk
    ensures Succeeded(oracle(base)) ==>
      var au := AudioRun(input, a, oracle, base, disk);
      && au.outcome == oracle(base + 1)
      && au.trace.calls == [ExtractVideo(input, a), ExtractAudio(input, a)]
      && au.trace.disk == (if Succeeded(au.outcome) then disk + {a.video, a.audio} else disk + {a.video})
      && Quiet(au.trace.logs)
    ensures Succeeded(oracle(base)) && Succeeded(oracle(base + 1)) ==>
      var s := SubtitleRun(job, input, a, oracle, base, disk);
      var extracted := job.includeSubtitles && Succeeded(oracle(base + 2));
      && s.trace.calls == [ExtractVideo(input, a), ExtractAudio(input, a)]
                          + (if job.includeSubtitles then [ExtractSubtitles(input, a)] else [])
      && s.subtitles == (if extracted then Some(a.subtitles) else None)
      && s.trace.disk == disk + {a.video, a.audio} + (if extracted then {a.subtitles} else {})
      && (job.includeSubtitles && !extracted ==> SubtitleSkippedLine in s.trace.logs)
      && Quiet(s.trace.logs)
    ensures Succeeded(oracle(base)) && Succeeded(oracle(base + 1)) ==>
      var s := SubtitleRun(job, input, a, oracle, base, disk);
      var m := MuxRun(job, input, a, oracle, base, disk);
      && |s.trace.calls| == MuxSlot(job)
      && m.outcome == oracle(base + MuxSlot(job))
      && m.trace.calls == s.trace.calls + [Mux(a, job.frameRate)]
      && m.trace.disk == (if Succeeded(m.outcome) then s.trace.disk + {a.output} else s.trace.disk)
      && Quiet(m.trace.logs)
    ensures Quiet(VideoRun(input, a, oracle, base, disk).trace.logs)
  {
    VideoFacts(input, a, oracle, base, disk);
    if Succeeded(oracle(base)) {
      AudioFacts(input, a, oracle, base, disk);
      if Succeeded(oracle(base + 1)) {
        SubtitleFacts(job, input, a, oracle, base, disk);
        MuxFacts(job, input, a, oracle, base, disk);
      }
    }
  }

  /** Once video and audio are out, the item is the mux, then the merge
      stage, then the clean-up, each reached only if the one before did
      not stop the item. */
  lemma MuxedTail(job: Job, input: string, a: Artifacts, oracle: Oracle, base: nat, disk: set<string>)
    requires Succeeded(oracle(base)) && Succeeded(oracle(base + 1))
    ensures var s := SubtitleRun(job, input, a, oracle, base, disk);
      var m := MuxRun(job, input, a, oracle, base, disk);
      var merged := MergeStage(s.subtitles, a, m.trace, oracle, base);
      Convert(job, input, a, oracle, base, disk)
        == if !Succeeded(m.outcome) then ItemRun(Err(HardFailure("MP4 muxing failed: ", m.outcome)), m.trace)
           else if merged.result.Err? then merged
           else ItemRun(Ok, CleanUp(merged.trace, a, s.subtitles))
  {
    VideoFacts(input, a, oracle, base, disk);
    AudioFacts(input, a, oracle, base, disk);
  }

  /** An item runs between one and six tools, the first being mkvextract
      on the input, and a failed item has deleted nothing. */
  lemma ConvertShape(job: Job, input: string, a: Artifacts, oracle: Oracle, base: nat, disk: set<string>)
    ensures var r := Convert(job, input, a, oracle, base, disk);
      && 1 <= |r.trace.calls| <= 6 && r.trace.calls[0] == ExtractVideo(input, a)
      && (r.result.Err? ==> disk <= r.trace.disk)
  {
    if Succeeded(oracle(base)) && Succeeded(oracle(base + 1)) && Succeeded(oracle(base + MuxSlot(job))) {
      ShapeAfterMux(job, input, a, oracle, base, disk);
    } else {
      ShapeBeforeMerge(job, input, a, oracle, base, disk);
    }
  }

  lemma ShapeBeforeMerge(job: Job, input: string, a: Artifacts, oracle: Oracle, base: nat, disk: set<string>)
    requires !Succeeded(oracle(base)) || !Succeeded(oracle(base + 1)) || !Succeeded(oracle(base + MuxSlot(job)))
    ensures var r := Convert(job, input, a, oracle, base, disk);
      && 1 <= |r.trace.calls| <= 6 && r.trace.calls[0] == ExtractVideo(input, a)
      && (r.result.Err? ==> disk <= r.trace.disk)
  {
    PrefixFacts(job, input, a, oracle, base, disk);
  }

  lemma ShapeAfterMux(job: Job, input: string, a: Artifacts, oracle: Oracle, base: nat, disk: set<string>)
    requires Succeeded(oracle(base)) && Succeeded(oracle(base + 1)) && Succeeded(oracle(base + MuxSlot(job)))
    ensures var r := Convert(job, input, a, oracle, base, disk);
      && 1 <= |r.trace.calls| <= 6 && r.trace.calls[0] == ExtractVideo(input, a)
      && (r.result.Err? ==> disk <= r.trace.disk)
  {
    MuxedTail(job, input, a, oracle, base, disk);
    MuxFacts(job, input, a, oracle, base, disk);
    SubtitleFacts(job, input, a, oracle, base, disk);
    var s := SubtitleRun(job, input, a, oracle, base, disk);
    var m := MuxRun(job, input, a, oracle, base, disk);
    MergeStageFacts(s.subtitles, a, m.trace, oracle, base);
    var merged := MergeStage(s.subtitles, a, m.trace, oracle, base);
    assert merged.trace.calls[0] == m.trace.calls[0] == ExtractVideo(input, a);
    CleanUpFacts(merged.trace, a, s.subtitles);
  }

  /** `process_video_with_logs` first runs mkvextract on the input path,
      writing the scratch video named after the file stem in the temporary
      directory; it runs at most six tools, and a failed item has deleted
      nothing. */
  lemma ItemShape(job: Job, input: InputFile, oracle: Oracle, base: nat, disk: set<string>)
    requires input.fileName.Some?
    ensures var r := ProcessItem(job, input, oracle, base, disk);
      && 1 <= |r.trace.calls| <= 6
      && r.trace.calls[0].command == "mkvextract"
      && |r.trace.calls[0].args| == 3 && r.trace.calls[0].args[..2] == ["tracks", input.path]
      && r.trace.calls[0].creates == JoinPath(job.tempDir, Stem(input.fileName.value) + "_DV.hevc")
      && (r.result.Err? ==> disk <= r.trace.disk)
  {
    ConvertShape(job, input.path, ArtifactsOf(job, input), oracle, base, disk);
  }

  /** A failed video extraction stops the item at once with the
      extractor's reason: the raw standard error after "Video extraction
      failed: ", or the launch error unchanged. Nothing else runs and
      nothing is written. */
  lemma VideoFailureStopsItem(job: Job, input: string, a: Artifacts, oracle: Oracle, base: nat, disk: set<string>)
    requires !Succeeded(oracle(base))
    ensures var r := Convert(job, input, a, oracle, base, disk);
      && r.result == Err(HardFailure("Video extraction failed: ", oracle(base)))
      && r.trace.calls == [ExtractVideo(input, a)]
      && r.trace.disk == disk
  {
    PrefixFacts(job, input, a, oracle, base, disk);
  }

  /** A failed audio extraction stops the item after two tool runs and
      leaves the extracted video behind. */
  lemma AudioFailureStopsItem(job: Job, input: string, a: Artifacts, oracle: Oracle, base: nat, disk: set<string>)
    requires Succeeded(oracle(base)) && !Succeeded(oracle(base + 1))
    ensures var r := Convert(job, input, a, oracle, base, disk);
      && r.result == Err(HardFailure("Audio extraction failed: ", oracle(base + 1)))
      && r.trace.calls == [ExtractVideo(input, a), ExtractAudio(input, a)]
      && r.trace.disk == disk + {a.video}
  {
    PrefixFacts(job, input, a, oracle, base, disk);
  }

  /** A failed mux stops the item with the muxer's reason; the muxer is
      the last tool run and the scratch video and audio, and the extracted
      subtitles if any, stay on disk. */
  lemma MuxFailureStopsItem(job: Job, input: string, a: Artifacts, oracle: Oracle, base: nat, disk: set<string>)
    requires Succeeded(oracle(base)) && Succeeded(oracle(base + 1))
    requires !Succeeded(oracle(base + MuxSlot(job)))
    ensures var r := Convert(job, input, a, oracle, base, disk);
      && r.result == Err(HardFailure("MP4 muxing failed: ", oracle(base + MuxSlot(job))))
      && |r.trace.calls| == MuxSlot(job) + 1
      && r.trace.calls[MuxSlot(job)] == Mux(a, job.frameRate)
      && disk + {a.video, a.audio} <= r.trace.disk
      && (job.includeSubtitles && Succeeded(oracle(base + 2)) ==> a.subtitles in r.trace.disk)
  {
    PrefixFacts(job, input, a, oracle, base, disk);
  }

  /** Once video and audio are out, the subtitle extraction
      (`-map 0:s:0`) is the third tool run exactly when subtitles were
      requested. */
  lemma SubtitleExtractionIffRequested(job: Job, input: string, a: Artifacts, oracle: Oracle, base: nat, disk: set<string>)
    requires Succeeded(oracle(base)) && Succeeded(oracle(base + 1))
    ensures var r := Convert(job, input, a, oracle, base, disk);
      |r.trace.calls| >= 3
      && (r.trace.calls[2] == ExtractSubtitles(input, a) <==> job.includeSubtitles)
  {
    PrefixFacts(job, input, a, oracle, base, disk);
    var r := Convert(job, input, a, oracle, base, disk);
    var m := MuxRun(job, input, a, oracle, base, disk);
    assert Mux(a, job.frameRate).command[0] != ExtractSubtitles(input, a).command[0];
    assert m.trace.calls <= r.trace.calls by {
      if Succeeded(m.outcome) {
        MergeStageExtends(SubtitleRun(job, input, a, oracle, base, disk).subtitles, a, m.trace, oracle, base);
      }
    }
  }

  /** The subtitle stage only appends: the tools it runs come after the
      earlier ones. */
  lemma MergeStageExtends(subtitles: Option<string>, a: Artifacts, t: Trace, oracle: Oracle, base: nat)
    ensures var r := MergeStage(subtitles, a, t, oracle, base);
      && t.calls <= r.trace.calls
      && |r.trace.calls| <= |t.calls| + 2
      && (subtitles.None? ==> r == ItemRun(Ok, t))
  {
  }

  /** Without subtitles the item is mkvextract, ffmpeg and mp4muxer, in
      that order: it succeeds iff all three do, and then the output
      exists and the scratch video and audio are gone. */
  lemma NoSubtitlesRunsThreeTools(job: Job, input: string, a: Artifacts, oracle: Oracle, base: nat, disk: set<string>)
    requires !job.includeSubtitles
    ensures var r := Convert(job, input, a, oracle, base, disk);
      && (r.result.Ok? <==> Succeeded(oracle(base)) && Succeeded(oracle(base + 1)) && Succeeded(oracle(base + 2)))
      && (r.result.Ok? ==>
            && r.trace.calls == [ExtractVideo(input, a), ExtractAudio(input, a), Mux(a, job.frameRate)]
            && r.trace.disk == (disk + {a.output}) - {a.video, a.audio})
  {
    if !Succeeded(oracle(base)) || !Succeeded(oracle(base + 1)) {
      ExtractionFailureFails(job, input, a, oracle, base, disk);
    } else if !Succeeded(oracle(base + 2)) {
      MuxFailureStopsItem(job, input, a, oracle, base, disk);
    } else {
      ThreeToolsSucceed(job, input, a, oracle, base, disk);
    }
  }

  lemma ThreeToolsSucceed(job: Job, input: string, a: Artifacts, oracle: Oracle, base: nat, disk: set<string>)
    requires !job.includeSubtitles
    requires Succeeded(oracle(base)) && Succeeded(oracle(base + 1)) && Succeeded(oracle(base + 2))
    ensures var r := Convert(job, input, a, oracle, base, disk);
      && r.result.Ok?
      && r.trace.calls == [ExtractVideo(input, a), ExtractAudio(input, a), Mux(a, job.frameRate)]
      && r.trace.disk == (disk + {a.output}) - {a.video, a.audio}
  {
    MuxedTail(job, input, a, oracle, base, disk);
    MuxFacts(job, input, a, oracle, base, disk);
    SubtitleFacts(job, input, a, oracle, base, disk);
  }

  /** A failed subtitle extraction, whatever its kind, is logged and the
      item goes on without subtitles: it then succeeds iff the mux does,
      MP4Box never runs and only the primary output is produced. */
  lemma SubtitleExtractionIsSoft(job: Job, input: string, a: Artifacts, oracle: Oracle, base: nat, disk: set<string>)
    requires job.includeSubtitles
    requires Succeeded(oracle(base)) && Succeeded(oracle(base + 1)) && !Succeeded(oracle(base + 2))
    ensures var r := Convert(job, input, a, oracle, base, disk);
      && SubtitleSkippedLine in r.trace.logs
      && r.trace.calls == [ExtractVideo(input, a), ExtractAudio(input, a),
                           ExtractSubtitles(input, a), Mux(a, job.frameRate)]
      && (r.result.Ok? <==> Succeeded(oracle(base + 3)))
      && (r.result.Ok? ==> r.trace.disk == (disk + {a.output}) - {a.video, a.audio})
  {
    PrefixFacts(job, input, a, oracle, base, disk);
    var r := Convert(job, input, a, oracle, base, disk);
    var s := SubtitleRun(job, input, a, oracle, base, disk);
    assert s.trace.logs <= r.trace.logs;
  }

  /** A failed subtitle conversion skips the merge without failing the
      item; the extracted subtitle file is cleaned up with the rest. */
  lemma ConversionFailureIsSoft(job: Job, input: string, a: Artifacts, oracle: Oracle, base: nat, disk: set<string>)
    requires job.includeSubtitles
    requires Succeeded(oracle(base)) && Succeeded(oracle(base + 1))
    requires Succeeded(oracle(base + 2)) && Succeeded(oracle(base + 3))
    requires !Succeeded(oracle(base + 4))
    ensures var r := Convert(job, input, a, oracle, base, disk);
      && r.result == Ok
      && r.trace.calls == [ExtractVideo(input, a), ExtractAudio(input, a),
                           ExtractSubtitles(input, a), Mux(a, job.frameRate),
                           ConvertSubtitles(a.subtitles, a)]
      && r.trace.disk == (disk + {a.output}) - {a.video, a.audio, a.subtitles}
  {
    PrefixFacts(job, input, a, oracle, base, disk);
    var m := MuxRun(job, input, a, oracle, base, disk);
    assert |m.trace.calls| == 4;
  }

  /** After a successful conversion MP4Box is the sixth and last tool
      run. The item fails, with "Subtitle merging failed: " and the raw
      standard error, only when MP4Box ran and exited non-zero; an MP4Box
      launch error is ignored. Either way the converted subtitle file is
      kept. */
  lemma MergeDecidesItem(job: Job, input: string, a: Artifacts, oracle: Oracle, base: nat, disk: set<string>)
    requires job.includeSubtitles
    requires Succeeded(oracle(base)) && Succeeded(oracle(base + 1)) && Succeeded(oracle(base + 2))
    requires Succeeded(oracle(base + 3)) && Succeeded(oracle(base + 4))
    requires a.convertedSubtitles !in {a.video, a.audio, a.subtitles}
    ensures var r := Convert(job, input, a, oracle, base, disk);
      var o := oracle(base + 5);
      && |r.trace.calls| == 6
      && r.trace.calls[4] == ConvertSubtitles(a.subtitles, a)
      && r.trace.calls[5] == MergeSubtitles(a)
      && r.result == (if o.Launched? && !o.success then Err("Subtitle merging failed: " + o.stderr) else Ok)
      && a.convertedSubtitles in r.trace.disk
  {
    MergeAfterConversion(job, input, a, oracle, base, disk);
    MergeResult(job, input, a, oracle, base, disk);
    ConversionFifth(job, input, a, oracle, base, disk);
    ConversionKept(job, input, a, oracle, base, disk);
  }

  /** A failed merge returns before the clean-up: the scratch video,
      audio and extracted subtitles, the primary output and the converted
      subtitle file all stay on disk, with everything that was there
      before. */
  lemma MergeFailureKeepsScratch(job: Job, input: string, a: Artifacts, oracle: Oracle, base: nat, disk: set<string>)
    requires Converted(job, oracle, base)
    requires oracle(base + 5).Launched? && !oracle(base + 5).success
    ensures var r := Convert(job, input, a, oracle, base, disk);
      && r.result == Err("Subtitle merging failed: " + oracle(base + 5).stderr)
      && disk + {a.video, a.audio, a.subtitles, a.output, a.convertedSubtitles} <= r.trace.disk
  {
    PrefixFacts(job, input, a, oracle, base, disk);
    ConvertedTail(job, input, a, oracle, base, disk);
    var m := MuxRun(job, input, a, oracle, base, disk);
    MergeStageQuiet(Some(a.subtitles), a, m.trace, oracle, base);
    MergeStageRuns(a.subtitles, a, m.trace, oracle, base);
    MergeStageResult(a.subtitles, a, m.trace, oracle, base);
  }

  lemma MergeResult(job: Job, input: string, a: Artifacts, oracle: Oracle, base: nat, disk: set<string>)
    requires Converted(job, oracle, base)
    ensures var r := Convert(job, input, a, oracle, base, disk);
      var o := oracle(base + 5);
      r.result == (if o.Launched? && !o.success then Err("Subtitle merging failed: " + o.stderr) else Ok)
  {
    ConvertedTail(job, input, a, oracle, base, disk);
    var m := MuxRun(job, input, a, oracle, base, disk);
    MergeStageResult(a.subtitles, a, m.trace, oracle, base);
  }

  /** After a successful conversion MP4Box runs next and the converted
      subtitle file is on disk. */
  lemma MergeStageRuns(subtitles: string, a: Artifacts, t: Trace, oracle: Oracle, base: nat)
    requires Succeeded(oracle(base + |t.calls|))
    ensures var r := MergeStage(Some(subtitles), a, t, oracle, base);
      && r.trace.calls == t.calls + [ConvertSubtitles(subtitles, a), MergeSubtitles(a)]
      && a.convertedSubtitles in r.trace.disk
  {
    var c := Execute(Note(t, "Processing subtitles..."), ConvertSubtitles(subtitles, a), oracle, base);
    assert c.trace.calls == t.calls + [ConvertSubtitles(subtitles, a)];
    assert c.trace.disk == t.disk + {a.convertedSubtitles};
    var m := Execute(c.trace, MergeSubtitles(a), oracle, base);
    assert m.trace.calls == c.trace.calls + [MergeSubtitles(a)];
    assert c.trace.disk <= m.trace.disk;
    assert MergeStage(Some(subtitles), a, t, oracle, base).trace == m.trace;
  }

  /** After a successful conversion the item's result is MP4Box's. */
  lemma MergeStageResult(subtitles: string, a: Artifacts, t: Trace, oracle: Oracle, base: nat)
    requires Succeeded(oracle(base + |t.calls|))
    ensures var o := oracle(base + |t.calls| + 1);
      MergeStage(Some(subtitles), a, t, oracle, base).result
        == (if o.Launched? && !o.success then Err("Subtitle merging failed: " + o.stderr) else Ok)
  {
    var c := Execute(Note(t, "Processing subtitles..."), ConvertSubtitles(subtitles, a), oracle, base);
    assert |c.trace.calls| == |t.calls| + 1;
  }

  /** With every stage before the merge successful, the item is the merge
      stage after the four tools, then the clean-up unless MP4Box failed. */
  lemma ConvertedTail(job: Job, input: string, a: Artifacts, oracle: Oracle, base: nat, disk: set<string>)
    requires Converted(job, oracle, base)
    ensures var m := MuxRun(job, input, a, oracle, base, disk);
      var merged := MergeStage(Some(a.subtitles), a, m.trace, oracle, base);
      && |m.trace.calls| == 4
      && Convert(job, input, a, oracle, base, disk)
           == (if merged.result.Err? then merged else ItemRun(Ok, CleanUp(merged.trace, a, Some(a.subtitles))))
  {
    PrefixFacts(job, input, a, oracle, base, disk);
  }

  lemma ConversionFifth(job: Job, input: string, a: Artifacts, oracle: Oracle, base: nat, disk: set<string>)
    requires Converted(job, oracle, base)
    ensures var r := Convert(job, input, a, oracle, base, disk);
      |r.trace.calls| > 4 && r.trace.calls[4] == ConvertSubtitles(a.subtitles, a)
  {
    ConvertedTail(job, input, a, oracle, base, disk);
    var m := MuxRun(job, input, a, oracle, base, disk);
    MergeStageRuns(a.subtitles, a, m.trace, oracle, base);
  }

  lemma ConversionKept(job: Job, input: string, a: Artifacts, oracle: Oracle, base: nat, disk: set<string>)
    requires Converted(job, oracle, base)
    requires a.convertedSubtitles !in {a.video, a.audio, a.subtitles}
    ensures a.convertedSubtitles in Convert(job, input, a, oracle, base, disk).trace.disk
  {
    ConvertedTail(job, input, a, oracle, base, disk);
    var m := MuxRun(job, input, a, oracle, base, disk);
    MergeStageRuns(a.subtitles, a, m.trace, oracle, base);
  }

  /** All stages before the merge succeeded, with subtitles requested. */
  predicate Converted(job: Job, oracle: Oracle, base: nat) {
    job.includeSubtitles && Succeeded(oracle(base)) && Succeeded(oracle(base + 1))
      && Succeeded(oracle(base + 2)) && Succeeded(oracle(base + 3)) && Succeeded(oracle(base + 4))
  }

  /** MP4Box runs iff subtitles were requested and both extractions, the
      mux and the subtitle conversion succeeded, and then only as the
      sixth tool run. */
  lemma MergeOnlyAfterConversion(job: Job, input: string, a: Artifacts, oracle: Oracle, base: nat, disk: set<string>)
    ensures var r := Convert(job, input, a, oracle, base, disk);
      && (Converted(job, oracle, base) ==> |r.trace.calls| == 6 && r.trace.calls[5] == MergeSubtitles(a))
      && (!Converted(job, oracle, base) ==> forall i :: 0 <= i < |r.trace.calls| ==> r.trace.calls[i].command != "MP4Box")
  {
    if Converted(job, oracle, base) {
      MergeAfterConversion(job, input, a, oracle, base, disk);
    } else {
      NoMergeWithoutConversion(job, input, a, oracle, base, disk);
    }
  }

  lemma MergeAfterConversion(job: Job, input: string, a: Artifacts, oracle: Oracle, base: nat, disk: set<string>)
    requires Converted(job, oracle, base)
    ensures var r := Convert(job, input, a, oracle, base, disk);
      |r.trace.calls| == 6 && r.trace.calls[5] == MergeSubtitles(a)
  {
    ConvertedTail(job, input, a, oracle, base, disk);
    var m := MuxRun(job, input, a, oracle, base, disk);
    MergeStageRuns(a.subtitles, a, m.trace, oracle, base);
  }

  lemma NoMergeWithoutConversion(job: Job, input: string, a: Artifacts, oracle: Oracle, base: nat, disk: set<string>)
    requires !Converted(job, oracle, base)
    ensures var r := Convert(job, input, a, oracle, base, disk);
      forall i :: 0 <= i < |r.trace.calls| ==> r.trace.calls[i].command != "MP4Box"
  {
    var r := Convert(job, input, a, oracle, base, disk);
    StopsBeforeMerge(job, input, a, oracle, base, disk);
    BeforeMergeTools(job, input, a);
    forall i | 0 <= i < |r.trace.calls|
      ensures r.trace.calls[i].command != "MP4Box"
    {
      assert r.trace.calls[i] == BeforeMerge(job, input, a)[i];
    }
  }

  /** The tools an item runs before MP4Box, in order. */
  function BeforeMerge(job: Job, input: string, a: Artifacts): seq<Invocation> {
    [ExtractVideo(input, a), ExtractAudio(input, a)]
      + (if job.includeSubtitles then [ExtractSubtitles(input, a)] else [])
      + [Mux(a, job.frameRate), ConvertSubtitles(a.subtitles, a)]
  }

  lemma BeforeMergeTools(job: Job, input: string, a: Artifacts)
    ensures forall i :: 0 <= i < |BeforeMerge(job, input, a)| ==> BeforeMerge(job, input, a)[i].command != "MP4Box"
  {
    assert "mkvextract"[0] != "MP4Box"[0] && "ffmpeg"[0] != "MP4Box"[0] && "mp4muxer"[1] != "MP4Box"[1];
  }

  /** Short of a conversion, the item stops within the tools before the merge. */
  lemma StopsBeforeMerge(job: Job, input: string, a: Artifacts, oracle: Oracle, base: nat, disk: set<string>)
    requires !Converted(job, oracle, base)
    ensures Convert(job, input, a, oracle, base, disk).trace.calls <= BeforeMerge(job, input, a)
  {
    if !Succeeded(oracle(base)) || !Succeeded(oracle(base + 1)) {
      StopsInExtraction(job, input, a, oracle, base, disk);
    } else if !Succeeded(oracle(base + MuxSlot(job))) {
      StopsAtMux(job, input, a, oracle, base, disk);
    } else {
      StopsAfterMux(job, input, a, oracle, base, disk);
    }
  }

  lemma StopsInExtraction(job: Job, input: string, a: Artifacts, oracle: Oracle, base: nat, disk: set<string>)
    requires !Succeeded(oracle(base)) || !Succeeded(oracle(base + 1))
    ensures Convert(job, input, a, oracle, base, disk).trace.calls <= BeforeMerge(job, input, a)
  {
    PrefixFacts(job, input, a, oracle, base, disk);
  }

  lemma StopsAtMux(job: Job, input: string, a: Artifacts, oracle: Oracle, base: nat, disk: set<string>)
    requires Succeeded(oracle(base)) && Succeeded(oracle(base + 1))
    requires !Succeeded(oracle(base + MuxSlot(job)))
    ensures Convert(job, input, a, oracle, base, disk).trace.calls <= BeforeMerge(job, input, a)
  {
    PrefixFacts(job, input, a, oracle, base, disk);
  }

  lemma StopsAfterMux(job: Job, input: string, a: Artifacts, oracle: Oracle, base: nat, disk: set<string>)
    requires !Converted(job, oracle, base)
    requires Succeeded(oracle(base)) && Succeeded(oracle(base + 1))
    requires Succeeded(oracle(base + MuxSlot(job)))
    ensures Convert(job, input, a, oracle, base, disk).trace.calls <= BeforeMerge(job, input, a)
  {
    PrefixFacts(job, input, a, oracle, base, disk);
    var m := MuxRun(job, input, a, oracle, base, disk);
    assert |m.trace.calls| == MuxSlot(job) + 1;
  }

  /** A failed item has written neither the clean-up nor the completion
      line and has removed nothing from the disk. */
  lemma FailureIsQuiet(job: Job, input: string, a: Artifacts, oracle: Oracle, base: nat, disk: set<string>)
    ensures var r := Convert(job, input, a, oracle, base, disk);
      r.result.Err? ==> Quiet(r.trace.logs) && disk <= r.trace.disk
  {
    PrefixFacts(job, input, a, oracle, base, disk);
    if Succeeded(oracle(base)) && Succeeded(oracle(base + 1)) {
      var s := SubtitleRun(job, input, a, oracle, base, disk);
      var m := MuxRun(job, input, a, oracle, base, disk);
      if Succeeded(m.outcome) {
        MergeStageQuiet(s.subtitles, a, m.trace, oracle, base);
      }
    }
  }

  /** A successful item ends with the clean-up and completion lines,
      written nowhere before, has removed the scratch video, audio and
      extracted subtitles, and holds its output. */
  lemma SuccessEndsWithCleanup(job: Job, input: string, a: Artifacts, oracle: Oracle, base: nat, disk: set<string>)
    requires a.output !in {a.video, a.audio, a.subtitles}
    ensures var r := Convert(job, input, a, oracle, base, disk);
      r.result.Ok? ==>
        && |r.trace.logs| >= 2
        && r.trace.logs[|r.trace.logs| - 2..] == [CleaningUpLine, CompletedLine]
        && Quiet(r.trace.logs[..|r.trace.logs| - 2])
        && a.video !in r.trace.disk && a.audio !in r.trace.disk
        && (job.includeSubtitles && Succeeded(oracle(base + 2)) ==> a.subtitles !in r.trace.disk)
        && a.output in r.trace.disk
  {
    SuccessLogs(job, input, a, oracle, base, disk);
    SuccessDisk(job, input, a, oracle, base, disk);
  }

  lemma SuccessLogs(job: Job, input: string, a: Artifacts, oracle: Oracle, base: nat, disk: set<string>)
    ensures var r := Convert(job, input, a, oracle, base, disk);
      r.result.Ok? ==>
        && |r.trace.logs| >= 2
        && r.trace.logs[|r.trace.logs| - 2..] == [CleaningUpLine, CompletedLine]
        && Quiet(r.trace.logs[..|r.trace.logs| - 2])
  {
    if !Succeeded(oracle(base)) || !Succeeded(oracle(base + 1)) {
      ExtractionFailureFails(job, input, a, oracle, base, disk);
    } else if !Succeeded(oracle(base + MuxSlot(job))) {
      MuxFailureStopsItem(job, input, a, oracle, base, disk);
    } else {
      MuxedSuccessLogs(job, input, a, oracle, base, disk);
    }
  }

  lemma MuxedSuccessLogs(job: Job, input: string, a: Artifacts, oracle: Oracle, base: nat, disk: set<string>)
    requires Succeeded(oracle(base)) && Succeeded(oracle(base + 1))
    requires Succeeded(oracle(base + MuxSlot(job)))
    ensures var r := Convert(job, input, a, oracle, base, disk);
      r.result.Ok? ==>
        && |r.trace.logs| >= 2
        && r.trace.logs[|r.trace.logs| - 2..] == [CleaningUpLine, CompletedLine]
        && Quiet(r.trace.logs[..|r.trace.logs| - 2])
  {
    MuxedTail(job, input, a, oracle, base, disk);
    MuxFacts(job, input, a, oracle, base, disk);
    var r := Convert(job, input, a, oracle, base, disk);
    var s := SubtitleRun(job, input, a, oracle, base, disk);
    var m := MuxRun(job, input, a, oracle, base, disk);
    var merged := MergeStage(s.subtitles, a, m.trace, oracle, base);
    MergeStageQuiet(s.subtitles, a, m.trace, oracle, base);
    CleanUpLogs(merged.trace, a, s.subtitles);
  }

  /** The clean-up appends exactly its two lines to a quiet log. */
  lemma CleanUpLogs(t: Trace, a: Artifacts, subtitles: Option<string>)
    requires Quiet(t.logs)
    ensures var logs := CleanUp(t, a, subtitles).logs;
      && |logs| >= 2
      && logs[|logs| - 2..] == [CleaningUpLine, CompletedLine]
      && Quiet(logs[..|logs| - 2])
  {
    var logs := CleanUp(t, a, subtitles).logs;
    assert logs == t.logs + [CleaningUpLine, CompletedLine];
    assert logs[..|logs| - 2] == t.logs;
  }

  lemma SuccessDisk(job: Job, input: string, a: Artifacts, oracle: Oracle, base: nat, disk: set<string>)
    requires a.output !in {a.video, a.audio, a.subtitles}
    ensures var r := Convert(job, input, a, oracle, base, disk);
      r.result.Ok? ==>
        && a.video !in r.trace.disk && a.audio !in r.trace.disk
        && (job.includeSubtitles && Succeeded(oracle(base + 2)) ==> a.subtitles !in r.trace.disk)
        && a.output in r.trace.disk
  {
    if !Succeeded(oracle(base)) || !Succeeded(oracle(base + 1)) {
      ExtractionFailureFails(job, input, a, oracle, base, disk);
    } else if !Succeeded(oracle(base + MuxSlot(job))) {
      MuxFailureStopsItem(job, input, a, oracle, base, disk);
    } else {
      MuxedSuccessDisk(job, input, a, oracle, base, disk);
    }
  }

  lemma MuxedSuccessDisk(job: Job, input: string, a: Artifacts, oracle: Oracle, base: nat, disk: set<string>)
    requires Succeeded(oracle(base)) && Succeeded(oracle(base + 1))
    requires Succeeded(oracle(base + MuxSlot(job)))
    requires a.output !in {a.video, a.audio, a.subtitles}
    ensures var r := Convert(job, input, a, oracle, base, disk);
      r.result.Ok? ==>
        && a.video !in r.trace.disk && a.audio !in r.trace.disk
        && (job.includeSubtitles && Succeeded(oracle(base + 2)) ==> a.subtitles !in r.trace.disk)
        && a.output in r.trace.disk
  {
    MuxedTail(job, input, a, oracle, base, disk);
    MuxFacts(job, input, a, oracle, base, disk);
    SubtitleFacts(job, input, a, oracle, base, disk);
    var s := SubtitleRun(job, input, a, oracle, base, disk);
    var m := MuxRun(job, input, a, oracle, base, disk);
    MergeStageQuiet(s.subtitles, a, m.trace, oracle, base);
  }

  /** A failed extraction of video or audio fails the item. */
  lemma ExtractionFailureFails(job: Job, input: string, a: Artifacts, oracle: Oracle, base: nat, disk: set<string>)
    requires !Succeeded(oracle(base)) || !Succeeded(oracle(base + 1))
    ensures Convert(job, input, a, oracle, base, disk).result.Err?
  {
    if !Succeeded(oracle(base)) {
      VideoFailureStopsItem(job, input, a, oracle, base, disk);
    } else {
      AudioFailureStopsItem(job, input, a, oracle, base, disk);
    }
  }

  /** The clean-up and completion lines appear iff the item succeeds, and
      then as its last two lines. A successful item has removed the
      scratch video, audio and extracted subtitles and holds its output;
      a failed one still has every file that was on disk before it. */
  lemma CleanupOnlyOnSuccess(job: Job, input: string, a: Artifacts, oracle: Oracle, base: nat, disk: set<string>)
    requires a.output !in {a.video, a.audio, a.subtitles}
    ensures var r := Convert(job, input, a, oracle, base, disk);
      && (r.result.Ok? <==> CleaningUpLine in r.trace.logs)
      && (r.result.Ok? <==> CompletedLine in r.trace.logs)
      && (r.result.Ok? ==> r.trace.logs[|r.trace.logs| - 2..] == [CleaningUpLine, CompletedLine])
      && (r.result.Ok? ==>
            && a.video !in r.trace.disk && a.audio !in r.trace.disk
            && (job.includeSubtitles && Succeeded(oracle(base + 2)) ==> a.subtitles !in r.trace.disk)
            && a.output in r.trace.disk)
      && (r.result.Err? ==> disk <= r.trace.disk)
  {
    var r := Convert(job, input, a, oracle, base, disk);
    FailureIsQuiet(job, input, a, oracle, base, disk);
    SuccessEndsWithCleanup(job, input, a, oracle, base, disk);
    if r.result.Ok? {
      var n := |r.trace.logs|;
      assert r.trace.logs[n - 2] == CleaningUpLine;
      assert r.trace.logs[n - 1] == CompletedLine;
    }
  }

  /** The subtitle stage never announces the clean-up and never deletes. */
  lemma MergeStageQuiet(subtitles: Option<string>, a: Artifacts, t: Trace, oracle: Oracle, base: nat)
    requires Quiet(t.logs)
    ensures var r := MergeStage(subtitles, a, t, oracle, base);
      Quiet(r.trace.logs) && t.disk <= r.trace.disk
  {
    if subtitles.Some? {
      var t1 := Note(t, "Processing subtitles...");
      QuietNote(t, "Processing subtitles...");
      QuietExecute(t1, ConvertSubtitles(subtitles.value, a), oracle, base);
      var c := Execute(t1, ConvertSubtitles(subtitles.value, a), oracle, base);
      QuietExecute(c.trace, MergeSubtitles(a), oracle, base);
    }
  }

  /** The subtitle stage creates the converted subtitle file exactly when
      it runs the conversion and that run succeeds; the conversion is then
      its first tool run. */
  lemma MergeStageConverted(subtitles: Option<string>, a: Artifacts, t: Trace, oracle: Oracle, base: nat)
    requires a.outputWithSubtitles != a.convertedSubtitles
    ensures var r := MergeStage(subtitles, a, t, oracle, base);
      && (a.convertedSubtitles in r.trace.disk <==>
            a.convertedSubtitles in t.disk || (subtitles.Some? && Succeeded(oracle(base + |t.calls|))))
      && (subtitles.Some? ==> |r.trace.calls| > |t.calls| && r.trace.calls[|t.calls|] == ConvertSubtitles(subtitles.value, a))
      && (subtitles.None? ==> r.trace == t)
  {
    if subtitles.Some? {
      var c := Execute(Note(t, "Processing subtitles..."), ConvertSubtitles(subtitles.value, a), oracle, base);
      assert c.outcome == oracle(base + |t.calls|);
      if Succeeded(c.outcome) {
        var m := Execute(c.trace, MergeSubtitles(a), oracle, base);
        assert m.trace.calls[|t.calls|] == ConvertSubtitles(subtitles.value, a);
      }
    }
  }

  /** The converted `_subs.mp4` file is never deleted: it is on disk after
      the item iff it was before or the conversion succeeded. */
  lemma ConvertedSubtitlesKept(job: Job, input: string, a: Artifacts, oracle: Oracle, base: nat, disk: set<string>)
    requires a.convertedSubtitles !in {a.video, a.audio, a.subtitles}
    requires a.outputWithSubtitles != a.convertedSubtitles
    requires a.output != a.convertedSubtitles
    ensures var r := Convert(job, input, a, oracle, base, disk);
      a.convertedSubtitles in r.trace.disk <==>
        a.convertedSubtitles in disk
        || (|r.trace.calls| >= 5 && r.trace.calls[4] == ConvertSubtitles(a.subtitles, a) && Succeeded(oracle(base + 4)))
  {
    if Succeeded(oracle(base)) && Succeeded(oracle(base + 1)) {
      if Succeeded(oracle(base + MuxSlot(job))) {
        KeptAfterMux(job, input, a, oracle, base, disk);
      } else {
        KeptAtMux(job, input, a, oracle, base, disk);
      }
    } else {
      KeptInExtraction(job, input, a, oracle, base, disk);
    }
  }

  lemma KeptInExtraction(job: Job, input: string, a: Artifacts, oracle: Oracle, base: nat, disk: set<string>)
    requires !Succeeded(oracle(base)) || !Succeeded(oracle(base + 1))
    requires a.convertedSubtitles !in {a.video, a.audio, a.subtitles}
    requires a.outputWithSubtitles != a.convertedSubtitles
    requires a.output != a.convertedSubtitles
    ensures var r := Convert(job, input, a, oracle, base, disk);
      a.convertedSubtitles in r.trace.disk <==>
        a.convertedSubtitles in disk
        || (|r.trace.calls| >= 5 && r.trace.calls[4] == ConvertSubtitles(a.subtitles, a) && Succeeded(oracle(base + 4)))
  {
    PrefixFacts(job, input, a, oracle, base, disk);
  }

  lemma KeptAtMux(job: Job, input: string, a: Artifacts, oracle: Oracle, base: nat, disk: set<string>)
    requires Succeeded(oracle(base)) && Succeeded(oracle(base + 1))
    requires !Succeeded(oracle(base + MuxSlot(job)))
    requires a.convertedSubtitles !in {a.video, a.audio, a.subtitles}
    requires a.outputWithSubtitles != a.convertedSubtitles
    requires a.output != a.convertedSubtitles
    ensures var r := Convert(job, input, a, oracle, base, disk);
      a.convertedSubtitles in r.trace.disk <==>
        a.convertedSubtitles in disk
        || (|r.trace.calls| >= 5 && r.trace.calls[4] == ConvertSubtitles(a.subtitles, a) && Succeeded(oracle(base + 4)))
  {
    PrefixFacts(job, input, a, oracle, base, disk);
    assert Mux(a, job.frameRate).command[0] != ConvertSubtitles(a.subtitles, a).command[0];
  }

  lemma KeptAfterMux(job: Job, input: string, a: Artifacts, oracle: Oracle, base: nat, disk: set<string>)
    requires Succeeded(oracle(base)) && Succeeded(oracle(base + 1))
    requires Succeeded(oracle(base + MuxSlot(job)))
    requires a.convertedSubtitles !in {a.video, a.audio, a.subtitles}
    requires a.outputWithSubtitles != a.convertedSubtitles
    requires a.output != a.convertedSubtitles
    ensures var r := Convert(job, input, a, oracle, base, disk);
      a.convertedSubtitles in r.trace.disk <==>
        a.convertedSubtitles in disk
        || (|r.trace.calls| >= 5 && r.trace.calls[4] == ConvertSubtitles(a.subtitles, a) && Succeeded(oracle(base + 4)))
  {
    MuxedTail(job, input, a, oracle, base, disk);
    MuxFacts(job, input, a, oracle, base, disk);
    SubtitleFacts(job, input, a, oracle, base, disk);
    var r := Convert(job, input, a, oracle, base, disk);
    var s := SubtitleRun(job, input, a, oracle, base, disk);
    var m := MuxRun(job, input, a, oracle, base, disk);
    MergeStageConverted(s.subtitles, a, m.trace, oracle, base);
    var merged := MergeStage(s.subtitles, a, m.trace, oracle, base);
    assert r.trace.calls == merged.trace.calls;
    assert Mux(a, job.frameRate).command[0] != ConvertSubtitles(a.subtitles, a).command[0];
  }

  /** Two joined paths whose file names end in different nine-character
      suffixes are different paths. */
  lemma TailsDiffer(d1: string, n1: string, d2: string, n2: string)
    requires |n1| >= 9 && |n2| >= 9 && n1[|n1| - 9..] != n2[|n2| - 9..]
    ensures JoinPath(d1, n1) != JoinPath(d2, n2)
  {
    TailOfJoin(d1, n1);
    TailOfJoin(d2, n2);
  }

  lemma TailOfJoin(dir: string, name: string)
    requires |name| >= 9
    ensures var p := JoinPath(dir, name);
      |p| >= 9 && p[|p| - 9..] == name[|name| - 9..]
  {
    var p := JoinPath(dir, name);
    assert p[|p| - 9..] == p[|p| - |name|..][|name| - 9..];
  }

  lemma TailOf(stem: string, suffix: string)
    requires |suffix| == 9
    ensures (stem + suffix)[|stem + suffix| - 9..] == suffix
  {
  }

  /** The converted subtitles never coincide with a file the clean-up
      deletes. */
  lemma ConvertedSubtitlesSeparate(job: Job, stem: string)
    ensures var a := ArtifactsFor(job, stem);
      a.convertedSubtitles !in {a.video, a.audio, a.subtitles}
  {
    var d := job.tempDir;
    JoinPathsDiffer(d, stem + "_subs.mp4", d, stem + "_DV.hevc");
    JoinPathsDiffer(d, stem + "_subs.mp4", d, stem + "_audio.ec3");
    JoinPathsDiffer(d, stem + "_subs.mp4", d, stem + "_subs.srt");
  }

  /** The primary output never coincides with a file the clean-up
      deletes, nor with the converted subtitles. */
  lemma OutputSeparate(job: Job, stem: string)
    ensures var a := ArtifactsFor(job, stem);
      && a.output !in {a.video, a.audio, a.subtitles}
      && a.output != a.convertedSubtitles
  {
    OutputNotScratch(job, stem);
    OutputNotConverted(job, stem);
  }

  lemma OutputNotScratch(job: Job, stem: string)
    ensures var a := ArtifactsFor(job, stem);
      a.output !in {a.video, a.audio, a.subtitles}
  {
    var d, o := job.tempDir, job.outputFolder;
    JoinPathsDiffer(o, stem + "_dvh1.mp4", d, stem + "_DV.hevc");
    JoinPathsDiffer(o, stem + "_dvh1.mp4", d, stem + "_audio.ec3");
    JoinPathsDiffer(o, stem + "_dvh1.mp4", d, stem + "_subs.srt");
  }

  lemma OutputNotConverted(job: Job, stem: string)
    ensures var a := ArtifactsFor(job, stem);
      a.output != a.convertedSubtitles
  {
    var d, o := job.tempDir, job.outputFolder;
    TailOf(stem, "_dvh1.mp4");
    TailOf(stem, "_subs.mp4");
    assert "_dvh1.mp4" != "_subs.mp4" by { assert "_dvh1.mp4"[1] != "_subs.mp4"[1]; }
    TailsDiffer(o, stem + "_dvh1.mp4", d, stem + "_subs.mp4");
  }

  /** The merged output never coincides with the converted subtitles,
      even though both names end in `_subs.mp4` and the output folder may
      be anything: the file name after the last '/' differs. */
  lemma WithSubsNotConverted(job: Job, stem: string)
    ensures var a := ArtifactsFor(job, stem);
      a.outputWithSubtitles != a.convertedSubtitles
  {
    var w, sfx := "_dvh1_with", "_subs.mp4";
    var p1 := JoinPath(job.outputFolder, stem + w + sfx);
    var p2 := JoinPath(job.tempDir, stem + sfx);
    WithSubsName(stem);
    WithNoSlash();
    if p1 == p2 {
      JoinSeparator(job.tempDir, stem + sfx);
      NoSlashBeforeShorterName(p1, stem, w, sfx);
    }
  }

  lemma WithSubsName(stem: string)
    ensures stem + "_dvh1_with_subs.mp4" == stem + "_dvh1_with" + "_subs.mp4"
  {
    assert "_dvh1_with_subs.mp4" == "_dvh1_with" + "_subs.mp4";
  }

  lemma WithNoSlash()
    ensures forall j :: 0 <= j < |"_dvh1_with"| ==> "_dvh1_with"[j] != '/'
  {
  }

  /** A path ending in `x + w + sfx` and in `x + sfx`, with `w` free of
      '/', has no '/' just before the shorter of the two. */
  lemma NoSlashBeforeShorterName(p: string, x: string, w: string, sfx: string)
    requires |w| > 0 && forall j :: 0 <= j < |w| ==> w[j] != '/'
    requires |p| >= |x + w + sfx| && p[|p| - |x + w + sfx|..] == x + w + sfx
    requires p[|p| - |x + sfx|..] == x + sfx
    ensures |p| > |x + sfx| && p[|p| - |x + sfx| - 1] != '/'
  {
    var n1 := x + w + sfx;
    var k1 := |p| - |n1|;
    assert p[k1 + |w| - 1] == n1[|w| - 1];
    assert n1[|w| - 1] == (x + w)[|w| - 1];
    Periodic(p, x, w, sfx);
    if |w| - 1 < |x| {
      PeriodicSlashFree(x, w, |w| - 1);
    } else {
      assert (x + w)[|w| - 1] == w[|w| - 1 - |x|];
    }
  }

  /** Both endings together make `x` repeat itself `|w|` characters on. */
  lemma Periodic(p: string, x: string, w: string, sfx: string)
    requires |p| >= |x + w + sfx| && p[|p| - |x + w + sfx|..] == x + w + sfx
    requires p[|p| - |x + sfx|..] == x + sfx
    ensures forall j :: 0 <= j < |x| ==> x[j] == (x + w)[j + |w|]
  {
    var n1, n2 := x + w + sfx, x + sfx;
    var k1, k2 := |p| - |n1|, |p| - |n2|;
    forall j | 0 <= j < |x|
      ensures x[j] == (x + w)[j + |w|]
    {
      assert x[j] == n2[j] == p[k2 + j];
      assert p[k2 + j] == p[k1 + (j + |w|)] == n1[j + |w|];
    }
  }

  /** A string that repeats itself `|w|` characters later and runs into
      `w` has no '/' when `w` has none. */
  lemma {:induction false} PeriodicSlashFree(x: string, w: string, i: nat)
    requires i < |x| && |w| > 0
    requires forall j :: 0 <= j < |w| ==> w[j] != '/'
    requires forall j :: 0 <= j < |x| ==> x[j] == (x + w)[j + |w|]
    ensures x[i] != '/'
    decreases |x| - i
  {
    if i + |w| < |x| {
      PeriodicSlashFree(x, w, i + |w|);
    } else {
      assert x[i] == w[i + |w| - |x|];
    }
  }

  /** For `process_video_with_logs`, whose paths are all derived from the
      file stem, the converted `_subs.mp4` file is on disk after the item
      iff it was before or the conversion ran and succeeded. */
  lemma ItemConvertedSubtitlesKept(job: Job, input: InputFile, oracle: Oracle, base: nat, disk: set<string>)
    requires input.fileName.Some?
    ensures var a := ArtifactsOf(job, input);
      var r := ProcessItem(job, input, oracle, base, disk);
      a.convertedSubtitles in r.trace.disk <==>
        a.convertedSubtitles in disk
        || (|r.trace.calls| >= 5 && r.trace.calls[4] == ConvertSubtitles(a.subtitles, a) && Succeeded(oracle(base + 4)))
  {
    var stem := Stem(input.fileName.value);
    ConvertedSubtitlesSeparate(job, stem);
    WithSubsNotConverted(job, stem);
    OutputNotConverted(job, stem);
    ConvertedSubtitlesKept(job, input.path, ArtifactsOf(job, input), oracle, base, disk);
  }

  /** Without subtitles and with every tool succeeding, an item runs
      mkvextract, ffmpeg and mp4muxer and produces its primary output. */
  lemma ItemWithoutSubtitles(job: Job, input: InputFile, oracle: Oracle, base: nat, disk: set<string>)
    requires input.fileName.Some? && !job.includeSubtitles
    requires Succeeded(oracle(base)) && Succeeded(oracle(base + 1)) && Succeeded(oracle(base + 2))
    ensures var r := ProcessItem(job, input, oracle, base, disk);
      && r.result == Ok
      && |r.trace.calls| == 3
      && r.trace.calls[0].command == "mkvextract"
      && r.trace.calls[1].command == "ffmpeg"
      && r.trace.calls[2].command == "mp4muxer"
      && ArtifactsOf(job, input).output in r.trace.disk
  {
    var a := ArtifactsOf(job, input);
    OutputSeparate(job, Stem(input.fileName.value));
    NoSubtitlesRunsThreeTools(job, input.path, a, oracle, base, disk);
  }

  /** For example, a file named "movie.mkv" without subtitles,
      every tool succeeding, produces `<output folder>/movie_dvh1.mp4`. */
  lemma MovieWithoutSubtitles(job: Job, path: string, oracle: Oracle, base: nat, disk: set<string>)
    requires !job.includeSubtitles
    requires Succeeded(oracle(base)) && Succeeded(oracle(base + 1)) && Succeeded(oracle(base + 2))
    ensures var r := ProcessItem(job, InputFile(path, Some("movie.mkv")), oracle, base, disk);
      r.result == Ok && JoinPath(job.outputFolder, "movie_dvh1.mp4") in r.trace.disk
  {
    var input := InputFile(path, Some("movie.mkv"));
    ItemWithoutSubtitles(job, input, oracle, base, disk);
    MovieOutput(job, input);
  }

  lemma MovieOutput(job: Job, input: InputFile)
    requires input.fileName == Some("movie.mkv")
    ensures ArtifactsOf(job, input).output == JoinPath(job.outputFolder, "movie_dvh1.mp4")
  {
    assert "movie" + "." + "mkv" == "movie.mkv";
    StemOfDottedName("movie", "mkv");
    assert "movie" + "_dvh1.mp4" == "movie_dvh1.mp4";
  }
}

=== FILE: results.dfy ===
/** Small failure-carrying datatypes shared by the whole model. */
module Results {

  /** An optional value: Rust's `Option<T>`. */
  datatype Option<+T> = None | Some(value: T)

  /** The `Result<(), String>` every stage, item and batch returns. */
  datatype Status = Ok | Err(reason: string)
}

=== FILE: text.dfy ===
/** String helpers the log formatting relies on: Rust's `str::trim`,
    `[&str]::join`, a splitter that undoes the join, and decimal
    rendering of the counters printed in the batch log. */
module Text {

  /** Rust's `char::is_whitespace`: the Unicode White_Space property. */
  predicate IsWhitespace(c: char) {
    || ('\t' <= c <= '\r')
    || c == ' '
    || c == '\U{85}'
    || c == '\U{A0}'
    || c == '\U{1680}'
    || ('\U{2000}' <= c <= '\U{200A}')
    || c == '\U{2028}'
    || c == '\U{2029}'
    || c == '\U{202F}'
    || c == '\U{205F}'
    || c == '\U{3000}'
  }

  predicate AllWhitespace(s: string) {
    forall i :: 0 <= i < |s| ==> IsWhitespace(s[i])
  }

  /** Drops leading whitespace: the result is a suffix of `s` and only
      whitespace was dropped. */
  function TrimStart(s: string): (r: string)
    ensures |r| <= |s| && r == s[|s| - |r|..]
    ensures forall i :: 0 <= i < |s| - |r| ==> IsWhitespace(s[i])
    ensures |r| > 0 ==> !IsWhitespace(r[0])
    decreases |s|
  {
    if |s| > 0 && IsWhitespace(s[0]) then TrimStart(s[1..]) else s
  }

  /** Drops trailing whitespace: the result is a prefix of `s` and only
      whitespace was dropped. */
  function TrimEnd(s: string): (r: string)
    ensures |r| <= |s| && r == s[..|r|]
    ensures forall i :: |r| <= i < |s| ==> IsWhitespace(s[i])
    ensures |r| > 0 ==> !IsWhitespace(r[|r| - 1])
    decreases |s|
  {
    if |s| > 0 && IsWhitespace(s[|s| - 1]) then TrimEnd(s[..|s| - 1]) else s
  }

  /** `r` is the slice of `s` at `i`, with only whitespace before and
      after it. */
  predicate TrimmedAt(s: string, r: string, i: int) {
    && 0 <= i <= |s| - |r|
    && r == s[i..i + |r|]
    && AllWhitespace(s[..i])
    && AllWhitespace(s[i + |r|..])
  }

  /** Rust's `str::trim`: `s` with its leading and trailing whitespace
      removed. The result is empty exactly when `s` is blank, and otherwise
      starts and ends with a non-whitespace character; `TrimIsSlice`
      shows it is the slice of `s` between the two runs of whitespace. */
  function Trim(s: string): (r: string)
    ensures |r| <= |s|
    ensures |r| == 0 <==> AllWhitespace(s)
    ensures |r| > 0 ==> !IsWhitespace(r[0]) && !IsWhitespace(r[|r| - 1])
  {
    TrimEnds(s);
    TrimEnd(TrimStart(s))
  }

  /** The trimmed string is a slice of `s` with only whitespace before
      and after it. */
  lemma TrimIsSlice(s: string)
    ensures exists i :: TrimmedAt(s, Trim(s), i)
  {
    var t := TrimStart(s);
    var r := TrimEnd(t);
    TrimSlice(s, t, r);
    assert Trim(s) == r;
    assert TrimmedAt(s, Trim(s), |s| - |t|);
  }

  /** The trimmed string is empty exactly when `s` is blank, and is
      otherwise bounded by non-whitespace characters. */
  lemma TrimEnds(s: string)
    ensures var r := TrimEnd(TrimStart(s));
      && |r| <= |s|
      && (|r| == 0 <==> AllWhitespace(s))
      && (|r| > 0 ==> !IsWhitespace(r[0]) && !IsWhitespace(r[|r| - 1]))
  {
    var t := TrimStart(s);
    var r := TrimEnd(t);
    if |r| == 0 {
      assert |t| == 0;
    } else {
      assert r[0] == t[0];
    }
  }

  lemma TrimSlice(s: string, t: string, r: string)
    requires |r| <= |t| <= |s| && t == s[|s| - |t|..] && r == t[..|r|]
    requires forall k :: 0 <= k < |s| - |t| ==> IsWhitespace(s[k])
    requires forall k :: |r| <= k < |t| ==> IsWhitespace(t[k])
    ensures TrimmedAt(s, r, |s| - |t|)
  {
    var i := |s| - |t|;
    SliceOfSuffix(s, t, r);
    var tail := s[i + |r|..];
    forall k | 0 <= k < |tail|
      ensures IsWhitespace(tail[k])
    {
      assert tail[k] == t[|r| + k];
    }
  }

  /** A prefix of a suffix is a slice. */
  lemma SliceOfSuffix(s: string, t: string, r: string)
    requires |r| <= |t| <= |s| && t == s[|s| - |t|..] && r == t[..|r|]
    ensures r == s[|s| - |t|..|s| - |t| + |r|]
  {
    var i := |s| - |t|;
    assert forall k :: 0 <= k < |r| ==> r[k] == t[k] == s[i + k];
  }

  /** Trimming twice is trimming once. */
  lemma TrimIdempotent(s: string)
    ensures Trim(Trim(s)) == Trim(s)
  {
    var r := Trim(s);
    if |r| > 0 {
      assert TrimStart(r) == r;
      assert TrimEnd(r) == r;
    }
  }

  /** `parts.join(sep)`: the parts with `sep` between neighbours. */
  function JoinWith(parts: seq<string>, sep: string): string
  {
    if |parts| == 0 then ""
    else if |parts| == 1 then parts[0]
    else parts[0] + sep + JoinWith(parts[1..], sep)
  }

  predicate Excludes(s: string, c: char) {
    forall i :: 0 <= i < |s| ==> s[i] != c
  }

  /** Splits `s` at every occurrence of `c`; an empty string gives one
      empty field. */
  function Split(s: string, c: char): (r: seq<string>)
    ensures |r| >= 1
    decreases |s|
  {
    if |s| == 0 then [""]
    else
      var rest := Split(s[1..], c);
      if s[0] == c then [""] + rest else [[s[0]] + rest[0]] + rest[1..]
  }

  /** A field free of the separator is split off whole. */
  lemma {:induction false} SplitField(p: string, c: char, q: string)
    requires Excludes(p, c)
    ensures Split(p + [c] + q, c) == [p] + Split(q, c)
    decreases |p|
  {
    if |p| == 0 {
      assert p + [c] + q == [c] + q;
      assert ([c] + q)[1..] == q;
    } else {
      assert (p + [c] + q)[1..] == p[1..] + [c] + q;
      SplitField(p[1..], c, q);
      assert [p[0]] + p[1..] == p;
    }
  }

  lemma {:induction false} SplitWhole(p: string, c: char)
    requires Excludes(p, c)
    ensures Split(p, c) == [p]
    decreases |p|
  {
    if |p| > 0 {
      SplitWhole(p[1..], c);
      assert [p[0]] + p[1..] == p;
    }
  }

  /** Joining with a one-character separator that occurs in no part is
      undone by splitting at that character. */
  lemma {:induction false} SplitJoin(parts: seq<string>, c: char)
    requires |parts| >= 1
    requires forall i :: 0 <= i < |parts| ==> Excludes(parts[i], c)
    ensures Split(JoinWith(parts, [c]), c) == parts
    decreases |parts|
  {
    if |parts| == 1 {
      SplitWhole(parts[0], c);
    } else {
      SplitField(parts[0], c, JoinWith(parts[1..], [c]));
      SplitJoin(parts[1..], c);
      assert [parts[0]] + parts[1..] == parts;
    }
  }

  /** The digit character for 0..9. */
  function Digit(d: nat): char
    requires d < 10
  {
    "0123456789"[d]
  }

  predicate IsDigitChar(c: char) {
    '0' <= c <= '9'
  }

  function DigitValue(c: char): nat
    requires IsDigitChar(c)
  {
    c as int - '0' as int
  }

  /** `format!("{}", n)` for a non-negative integer: decimal digits, no
      leading zero except for zero itself. */
  function Decimal(n: nat): (s: string)
    ensures |s| >= 1
    ensures forall i :: 0 <= i < |s| ==> IsDigitChar(s[i])
    ensures |s| > 1 ==> s[0] != '0'
    decreases n
  {
    if n < 10 then [Digit(n)] else Decimal(n / 10) + [Digit(n % 10)]
  }

  /** Reads a string of decimal digits back as a number. */
  function ParseDecimal(s: string): nat
    requires forall i :: 0 <= i < |s| ==> IsDigitChar(s[i])
    decreases |s|
  {
    if |s| == 0 then 0
    else ParseDecimal(s[..|s| - 1]) * 10 + DigitValue(s[|s| - 1])
  }

  /** Rendering a counter and reading it back gives the counter. */
  lemma {:induction false} DecimalRoundTrip(n: nat)
    ensures ParseDecimal(Decimal(n)) == n
    decreases n
  {
    var s := Decimal(n);
    if n < 10 {
      assert s[..0] == [];
    } else {
      DecimalRoundTrip(n / 10);
      assert s[..|s| - 1] == Decimal(n / 10);
    }
  }

  /** Distinct counters are rendered differently. */
  lemma DecimalInjective(m: nat, n: nat)
    ensures Decimal(m) == Decimal(n) ==> m == n
  {
    DecimalRoundTrip(m);
    DecimalRoundTrip(n);
  }
}
